=== FILE: README.md ===
# pr-agent-reviewer, modelled in Dafny

pr-agent-reviewer is a small webhook service. GitHub or GitLab calls `/webhook` when a
pull request (merge request) is opened. The service:

1. Checks the delivery: an HMAC-SHA256 signature for GitHub, a shared token for GitLab.
2. Decodes the payload and keeps only opened or reopened requests.
3. Starts `processPR` in the background. This fetches the changed files (the first page
   the host lists) as change strings (`File: <name>\nPatch:\n<patch>`), asks an AI
   backend (OpenAI or a local Ollama server) for a review and then for a summary of that
   review, posts the review on the pull request, and sends the title, URL and summary to
   a Slack channel.

The model covers the service's decision and formatting layer. Every network request goes
to an oracle, `Wire.Network`: a record of functions from request to `Result`. Every backend
operation returns the list of requests (`Wire.Call`s) it made. With that list, the
contracts can say what was requested, with what data, and in what order. The two Go
interfaces (VCS provider and AI provider) have exactly two implementations each. They are
modelled as closed datatypes (`Vcs.Provider`, `Ai.Provider`) with dispatching methods.
Those methods carry the contract that holds for both implementations.

A Go panic is a result here, not a precondition: `Errors.Reply.Panicked`. It covers two
cases: a method call on a nil client pointer, and indexing `Choices[0]` of an empty chat
reply. Go's `len` on a string counts UTF-8 bytes. The model encodes strings to UTF-8
(`Encoding.Utf8`), so the Ollama length gates and the byte comparison of signatures are
exact.

Modules, in dependency order:

- `Errors`, `Text`, `Encoding`, `Config` — results, string helpers, UTF-8 and lowercase
  hex, and `os.Getenv`.
- `Types` — the webhook payload records.
- `Wire` — SDK records, requests and the network oracle.
- `Changes` — the change-string format.
- `GitHub`, `GitLab`, `Ollama`, `OpenAI`, `Slack` — one module per client.
- `Vcs`, `Ai` — the factories and the dispatching providers.
- `Pipeline` — `processPR` and the backends `main` builds.
- `Gate` — verification and routing decisions.
- `Server` — the request, the response and the handler, as classes.

`openai/client.go` contains the same prompts, request and result selection as
`ai/openai_adapter.go` (openai/client.go:26-96 and ai/openai_adapter.go:29-98). Module
`OpenAI` models both.

## Model

| member | source | states |
|---|---|---|
| Encoding.HexEncode | main.go:207 | two ASCII characters per byte |
| Encoding.HexRoundTrip | main.go:207 | hex-decoding undoes `hex.EncodeToString`, so an expected signature determines the digest it was made from |
| Encoding.HexInjective | main.go:207 | two digests have the same hex encoding exactly when they are equal |
| Changes.Entry | github/client.go:59 | a change string is "File: " and the file name, then "\nPatch:\n", then the patch at the end, 14 characters longer than name and patch |
| Changes.EntryRoundTrip | github/client.go:59 | a change string whose file name has no newline parses back to exactly that file name and patch |
| Changes.ParsedIsEntry | gitlab/client.go:46 | conversely, any string that parses as a change string is the change string of what it parses to |
| GitHub.NewClient | github/client.go:21-30 | the client is nil exactly when GITHUB_TOKEN is empty, and otherwise carries that token |
| GitHub.SplitRepo | github/client.go:34-37 | a repository string is accepted exactly when it contains one `/`; owner + "/" + name gives it back, and neither part contains `/`; otherwise the error is "invalid repository format: <repo>" |
| GitHub.SplitRepoRoundTrip | github/client.go:34-38 | every owner/name pair without a further slash is accepted and split back into the same pair |
| GitHub.GetChanges | github/client.go:33-63 | a bad repository string fails before any request; a nil client panics; otherwise exactly one ListFiles request for owner, name and number; a listing error is wrapped as "failed to get PR changes: …"; on success, one change string per listed file, in host order, from GetFilename/GetPatch |
| GitHub.CreateReview | github/client.go:66-113 | a bad repository string fails before any request; a nil client panics; first request is Get of the PR; if that fails, the error is wrapped and nothing is posted; otherwise one CreateReview with body equal to the review and event COMMENT exactly when GITHUB_BOT_USERNAME is non-empty and equals the author's login (else REQUEST_CHANGES); a post error is wrapped, success is nil |
| GitLab.NewClient | gitlab/client.go:19-31 | the client is nil exactly when GITLAB_TOKEN is empty |
| GitLab.GetChanges | gitlab/client.go:35-50 | nil client panics; otherwise one diff-listing request on the unvalidated repository string; an error is wrapped as "failed to get MR changes: …"; on success, one change string per listed diff, in order, from new_path and diff |
| GitLab.CreateReview | gitlab/client.go:53-67 | nil client panics; otherwise one note request whose body is exactly the review (no event); an error is wrapped as "failed to create MR review: …", success is nil |
| Ollama.NewAdapter | ai/ollama_adapter.go:38-55 | base URL and model come from OLLAMA_BASE_URL and OLLAMA_MODEL, defaulting to http://localhost:11434 and codellama when empty |
| Ollama.SendRequest | ai/ollama_adapter.go:143-175 | one JSON POST to base URL + "/api/generate"; success exactly when the reply is a 200 whose body decodes to a non-empty `response`; each failure (transport, status with body, decoding, empty response) has its own error, checked in that order |
| Ollama.ReviewCode | ai/ollama_adapter.go:58-101 | one request with the configured model, the review prompt, the review system text and stream false; success exactly when the answer is at least 50 bytes, and then the answer is returned unchanged; a shorter answer gives "invalid response from Ollama: response too short"; a request failure is wrapped as "failed to get Ollama response: …" |
| Ollama.GenerateReviewSummary | ai/ollama_adapter.go:104-140 | the same for the summary prompt (preamble then the review verbatim) with a 20-byte gate and "summary too short" |
| Ollama.ReviewPromptLayout | ai/ollama_adapter.go:59-70 | the review prompt is the fixed preamble ending "Code changes to review:\n", followed by every change string in order, whole, separated by blank lines |
| Ollama.GateInCharacters | ai/ollama_adapter.go:92-95 | the byte gate accepts every text of at least n characters, rejects every text of fewer than n/4 characters, and counts characters exactly for ASCII text |
| OpenAI.Complete | ai/openai_adapter.go:37-62 | one chat completion request; an API error becomes "failed to get OpenAI response: …"; a reply with choices yields the first choice's content unchanged; a reply with no choices panics |
| OpenAI.ReviewCode | ai/openai_adapter.go:29-63 | one chat request over the review prompt; success exactly when the reply has a choice, and then the first choice is the review, unchanged; an API error is wrapped as "failed to get OpenAI response: …"; a panic exactly when the reply has no choices |
| OpenAI.GenerateReviewSummary | ai/openai_adapter.go:66-98 | the same for the summary prompt |
| OpenAI.ReviewPromptLayout | ai/openai_adapter.go:30-50 | the request is GPT-4 with a system message, then a user message carrying the fixed instruction (ending "Changes:\n") followed by every change string in order, whole, separated by blank lines |
| OpenAI.SummaryPromptCarriesReview | ai/openai_adapter.go:67-85 | the summary request's user message is the fixed instruction followed by the review verbatim, after the summary system message |
| Slack.NewClient | slack/client.go:16-21 | the client carries SLACK_BOT_TOKEN and is built whatever the environment holds |
| Slack.Message | slack/client.go:29-30 | the notification starts with "*New PR Review*\nTitle: ", ends with the summary, and is 47 characters longer than title, URL and summary |
| Slack.MessageRoundTrip | slack/client.go:29-30 | the notification layout is unambiguous: a title and URL without newlines, and any summary, are read back exactly from the message |
| Slack.SendPRReviewNotification | slack/client.go:23-44 | one PostMessage to the channel named by SLACK_CHANNEL_ID with the formatted message; success exactly when the post succeeds; a post error is wrapped as "failed to send Slack message: …" |
| Vcs.NewProvider | vcs/factory.go:22-35 | a provider is built exactly when VCS_PROVIDER is "", "github" or "gitlab"; GitLab exactly for "gitlab"; the client is whatever the client constructor returned (nil included); any other value gives "unsupported VCS provider: <value>" |
| Vcs.NilClientAccepted | vcs/factory.go:28-32 | with VCS_PROVIDER=gitlab and no GITLAB_TOKEN the factory returns a provider and no error, and its client is nil |
| Vcs.NewProviderChecked | vcs/factory.go:28-32 | the corrected factory: same result as the original when that has a non-nil client, the original's error when it fails, and an error instead of a nil client |
| Vcs.GetChanges | vcs/provider.go:4-6 | for either host, fetching changes makes at most one request, every request only reads and is about the given PR (GitHub: the owner and name that join to the repository string; GitLab: the repository string as the project), and a success made one request; it panics exactly when the client is nil (on GitHub only once the repository string is valid); a malformed repository string on GitHub is the parse error; with a working client the one request is the host's file listing (GitHub `ListFiles`, GitLab `ListDiffs`) and the result is the host's listing rendered one change string per file in host order, or the host error with "failed to get PR changes: " (GitHub) or "failed to get MR changes: " (GitLab) in front |
| Vcs.CreateReview | vcs/provider.go:8-9 | for either host, the only text published is the given review; at most one publishing request, always the last; every request is about the given PR; a success has published; panics exactly when the client is nil (GitHub: once the repository string is valid); a malformed repository string on GitHub is the parse error; with a working GitLab client its one request is the note carrying the review, and it succeeds exactly when the note is accepted, otherwise "failed to create MR review: " and the host error; with a working GitHub client its first request reads the PR, and when that read fails it posts nothing and fails with "failed to get PR details: ", otherwise it posts a COMMENT review when the PR's author is the configured bot and REQUEST_CHANGES otherwise, and succeeds exactly when that post is accepted, otherwise "failed to create PR review: " and the host error |
| Ai.NewProvider | ai/factory.go:19-32 | a provider is built exactly when AI_PROVIDER is "", "openai" or "ollama"; Ollama exactly for "ollama", with the adapter from its constructor; OpenAI with OPENAI_API_KEY; any other value gives "unsupported AI provider: <value>" |
| Ai.ReviewCode | ai/provider.go:4-6 | exactly one request, built from the change strings alone; on Ollama no panic, success exactly when the reply is answered with at least 50 bytes, and then the answer is returned unchanged; on OpenAI success exactly when the reply has a choice, the first choice returned unchanged, and a panic exactly when the reply has no choices |
| Ai.GenerateReviewSummary | ai/provider.go:8-9 | exactly one request, built from the review text alone; on Ollama no panic, success exactly when the reply is answered with at least 20 bytes, and then the answer is returned unchanged; on OpenAI success exactly when the reply has a choice, the first choice returned unchanged, and a panic exactly when the reply has no choices |
| Pipeline.Boot | main.go:37-52 | the backends exist exactly when both factories (as written) succeed, and are their results and the Slack client, a nil VCS client included; otherwise startup fails with the error of the VCS factory, asked first, or else of the AI factory |
| Pipeline.BootChecked | vcs/factory.go:28-32 | startup with the corrected VCS factory: the same backends whenever their VCS client is not nil, the original error when a factory fails, and the missing-token error instead of a nil client |
| Pipeline.StartsWithNilClient | main.go:37-52 | with an empty environment, `main` as written starts with a nil GitHub client, and the corrected startup refuses to start |
| Pipeline.ProcessPR | main.go:236-278 | GetChanges, ReviewCode, GenerateReviewSummary, CreateReview and the Slack notification run in this order; each runs only after all earlier ones succeeded; the run completes exactly when all five succeed; otherwise the outcome names the first stage that failed or panicked; each step is fed what earlier steps produced; the returned trace is the steps' requests in order; a panic comes only from a nil VCS client or from an OpenAI reply with no choices (to the review request for the fetched changes, or to the summary request for the review); a nil client panics at the first step, except on GitHub with a malformed repository string, where the first step fails with the parse error instead; every VCS request is about the PR the webhook named |
| Pipeline.InTrace | main.go:236-278 | the trace of a run holds exactly the requests its steps made |
| Pipeline.PostsCarryTheReview | main.go:248-267 | a publishing request in a run happens only after the review and the summary both succeeded, it publishes the review, not the summary, and it is about the PR the webhook named |
| Pipeline.VcsStaysOnThePR | main.go:236-267 | every request a run makes of the VCS host, read or post, is about the PR the webhook named |
| Pipeline.NotificationCarriesTheSummary | main.go:256-275 | a Slack post in a run happens only after the review was posted, and it is the message for this title, this URL and the summary of this review |
| Pipeline.AiSeesChangesThenReview | main.go:240-260 | every AI request in a run comes after a successful fetch and is either the review request for the fetched changes or the summary request for the review produced |
| Gate.RoutingAgreesWithFactory | main.go:93-96 | the gate takes the GitLab path exactly when VCS_PROVIDER is "gitlab"; when the factory accepts the configuration, it agrees with the gate on the host; any other value takes the GitHub path, and then the factory has refused it |
| Gate.ExpectedSignature | main.go:204-207 | the expected signature is "sha256=" followed by the lowercase hex of the MAC of the body under the secret's bytes, and is ASCII |
| Gate.GitHubSignatureOk | main.go:182-214 | with no secret every delivery passes; with a secret, a passing delivery has a readable body and a header starting "sha256=" whose length matches the MAC's hex encoding |
| Gate.GitLabTokenOk | main.go:216-234 | with no token every delivery passes; with a token, a passing delivery carries it in X-GitLab-Token |
| Gate.Verified | main.go:175-180 | the check of the configured host: on GitLab the token check alone, which does not read the body; on GitHub with no secret every delivery passes, and with a secret only readable ones can |
| Gate.GitHubSignatureRequired | main.go:182-214 | with a secret set, a GitHub delivery passes exactly when its body can be read and X-Hub-Signature-256 equals the expected signature; a missing header therefore fails |
| Gate.ByteComparisonIsStringComparison | main.go:209 | comparing the UTF-8 bytes of the header with those of the expected signature decides the same as comparing the strings |
| Gate.NonHexSignatureRejected | main.go:204-213 | with a secret set, a signature whose part after "sha256=" is not lowercase hex is refused for every body and every MAC |
| Gate.TestSignatureIsNotHex | main_test.go:81 | the digest part of "sha256=test-signature" is not hex |
| Gate.ForgedGitHubDeliveryRefused | main_test.go:80-94 | on the GitHub path with a secret set, a delivery signed "sha256=test-signature" gets 401 and is not dispatched |
| Gate.GitLabTokenRequired | main.go:216-234 | with a token set, a GitLab delivery passes exactly when X-GitLab-Token equals the token |
| Gate.UnconfiguredGateIsOpen | main.go:183-187 | with no secret (GitHub path) or no token (GitLab path), no delivery is refused as unauthentic, whatever its headers |
| Gate.GitHubVerdict | main.go:122-143 | a decoding error gives 400, never 401; a dispatch exactly for opened or reopened, with the number and the full repository name |
| Gate.GitLabVerdict | main.go:145-173 | a decoding error gives 400, never 401; a dispatch exactly for a merge request event with action open or reopen, with the iid and the project path |
| Gate.Route | main.go:91-120 | 401 exactly when the configured host's check fails; a dispatch only after verification and a readable body, and then it is the host's verdict on the decoded body |
| Gate.GitHubDispatchFilter | main.go:122-143 | a verified, readable, decodable GitHub delivery is dispatched exactly when its action is opened or reopened (every other action gives 200 and nothing else), with number, full repository name, title and html_url |
| Gate.GitLabDispatchFilter | main.go:145-173 | a verified, readable, decodable GitLab delivery is dispatched exactly when object_kind is merge_request and the action is open or reopen (otherwise 200 and nothing else), with iid, path_with_namespace, title and url |
| Gate.RefusalsDoNotDispatch | main.go:99-111 | a dispatch implies verification and a readable body; 401 exactly when verification fails; 400 exactly when a verified body cannot be read or decoded for the configured host |
| Server.Request.ReadAll | main.go:106-111 | reading the body hands out all its bytes, or fails when the reader is broken; the reader is drained either way |
| Server.Request.Restore | main.go:113 | the restored body is a reader that cannot fail and holds exactly the given bytes |
| Server.Response.WriteHeader | main.go:135 | only the first status written counts; the text is unchanged |
| Server.Response.Error | main.go:101 | the first status written is kept, and the message is written followed by a newline |
| Server.Server.VerifyGitHub | main.go:182-214 | the verdict is the GitHub signature rule for the bytes that arrived; a readable body is put back unchanged; every read hands out the bytes that arrived |
| Server.Server.HandleWebhook | main.go:91-120 | status, response text and started reviews are those of the routing decision for the headers and the bytes that arrived; a review is started exactly when the delivery is accepted; every read of the body, including the verifier's, hands out the bytes that arrived, so the decoder sees what was verified |
| Server.Server.HandleGitHub | main.go:122-143 | 400 on a decoding error; otherwise 200, with a dispatch exactly for opened or reopened |
| Server.Server.HandleGitLab | main.go:145-173 | 400 on a decoding error; otherwise 200, with a dispatch exactly for a merge request event with action open or reopen |

## Left out

- Logging (logger/logger.go and every log call) has no functional effect and is not modelled.
- `main` (router, `/health`, port, `.env` loading, logging middleware) is left out, except
  that the factory calls are modelled by `Pipeline.Boot`.
- `go processPR(...)` is modelled as recording the job in `Server.dispatched`. Running a
  job is a separate call to `Pipeline.ProcessPR`. Concurrency, unbounded goroutines and
  duplicate deliveries are not modelled.
- A panic is recorded as `Panicked`. In Go, an unrecovered panic in a goroutine ends the
  whole process; the model does not stop the server after one.
- HMAC-SHA256 is a parameter of type `Gate.Mac`. JSON decoding of the two payload types
  and of Ollama's reply is a parameter or oracle output. Neither is implemented.
- Ollama's `json.Marshal` of the request cannot fail for a record of strings and a bool,
  so the "failed to marshal request" path is not modelled.
- Timeouts, durations and `context` are left out.
- Header names are not canonicalised. `Gate.Headers` maps the name the handler asks for to
  the first value.
- `http.Error`'s extra response headers are not modelled.
- When reading the body fails, the partial data `io.ReadAll` returns is dropped, since
  the handler discards it too.
- SDK errors are carried as their message text. `%v` formatting of error values is taken
  as that text.
- Go strings are modelled as sequences of Unicode scalar values. Strings holding invalid
  UTF-8 are not modelled.
- Integers are unbounded. Request numbers never come near Go's 64-bit limits.
- `GetPRDetails` (github/client.go:115-129) is unused and not modelled. The same goes for
  `ReviewRequest` and `ReviewResponse` (ai/provider.go:12-23).
- Ai.ReviewCode: states the request, the returned text and when the call fails or panics,
  not the error texts; `OpenAI.ReviewCode` and `Ollama.ReviewCode` state those.
- Ai.GenerateReviewSummary: the same weakening as `Ai.ReviewCode`.
- GitHub.GetChanges: `ListFiles` is called with no list options, so only the first page of
  files is fetched; the oracle's answer stands for that one page. Changes beyond it are
  silently left out of the review, in the source as in the model.
- GitLab.GetChanges: the same for `ListMergeRequestDiffs`, whose first page alone is read.
- Pipeline.ProcessPR: states the order of the steps, their inputs, their requests, when a
  step panics, and the outcome. It does not restate, for the fetch, review, summary and
  post steps, how their result follows from the network's reply; `Vcs.GetChanges`,
  `Ai.ReviewCode`, `Ai.GenerateReviewSummary` and `Vcs.CreateReview`, which those steps
  call, state it. For the notification it does, through `Pipeline.Fits`.

## Findings

| source | as written | input that shows it | evidently intended | confidence | as-written member | corrected member |
|---|---|---|---|---|---|---|
| vcs/factory.go:28-32 | the factory returns the GitHub or GitLab client with a nil error even when the client constructor returned a nil pointer because no token is set; the nil pointer becomes a non-nil interface value, so `main` starts normally | VCS_PROVIDER=gitlab with GITLAB_TOKEN unset: the server starts, and the first accepted merge request event makes `processPR` call `GetChanges` on the nil client, which panics in its goroutine | the factory reports the missing token as an error, so `main` exits at startup | medium (not executed) | Vcs.NilClientAccepted | Vcs.NewProviderChecked |

=== FILE: ai.dfy ===
/** The AI backend interface (ai/provider.go) as a closed choice of its two
    implementations, and the factory that picks one (ai/factory.go). */
module Ai {
  import opened Errors
  import opened Config
  import opened Encoding
  import opened Wire
  import OpenAI
  import Ollama

  datatype Provider = OpenAIProvider(apiKey: string) | OllamaProvider(adapter: Ollama.Adapter)

  /** `NewProvider`: AI_PROVIDER, defaulting to "openai" when empty, matched exactly. */
  function NewProvider(env: Env): (r: Result<Provider>)
    ensures r.Ok? <==> Getenv(env, "AI_PROVIDER") in {"", "openai", "ollama"}
    ensures r.Ok? ==> (r.value.OllamaProvider? <==> Getenv(env, "AI_PROVIDER") == "ollama")
    ensures r.Ok? && r.value.OpenAIProvider? ==> r.value.apiKey == Getenv(env, "OPENAI_API_KEY")
    ensures r.Ok? && r.value.OllamaProvider? ==> r.value.adapter == Ollama.NewAdapter(env)
    ensures r.Err? ==> r.msg == "unsupported AI provider: " + Getenv(env, "AI_PROVIDER")
  {
    var providerType := if Getenv(env, "AI_PROVIDER") == "" then "openai" else Getenv(env, "AI_PROVIDER");
    if providerType == "openai" then Ok(OpenAIProvider(Getenv(env, "OPENAI_API_KEY")))
    else if providerType == "ollama" then Ok(OllamaProvider(Ollama.NewAdapter(env)))
    else Err("unsupported AI provider: " + providerType)
  }

  /** The one request a review makes: a function of the change strings alone. */
  function ReviewCall(p: Provider, changes: seq<string>): Call
  {
    match p
    case OpenAIProvider(_) => ChatCompletion(OpenAI.ReviewChat(changes))
    case OllamaProvider(a) => HttpPost(Ollama.Endpoint(a), "application/json", Ollama.ReviewRequest(a, changes))
  }

  /** The one request a summary makes: a function of the review text alone. */
  function SummaryCall(p: Provider, review: string): Call
  {
    match p
    case OpenAIProvider(_) => ChatCompletion(OpenAI.SummaryChat(review))
    case OllamaProvider(a) => HttpPost(Ollama.Endpoint(a), "application/json", Ollama.SummaryRequest(a, review))
  }

  /** `Provider.ReviewCode`, dispatched to the configured backend: what the backend
      answered is returned unchanged, Ollama's answer only when it passes the byte gate. */
  method ReviewCode(p: Provider, net: Network, changes: seq<string>)
    returns (r: Reply<string>, calls: seq<Call>)
    ensures calls == [ReviewCall(p, changes)]
    ensures p.OllamaProvider? ==>
      var reply := net.post(Ollama.Endpoint(p.adapter), "application/json", Ollama.ReviewRequest(p.adapter, changes));
      && r.Returned?
      && (r.Succeeded() <==> Ollama.Answered(reply) && ByteLen(Ollama.AnswerText(reply)) >= Ollama.MinReviewBytes)
      && (r.Succeeded() ==> r.result.value == Ollama.AnswerText(reply))
    ensures p.OpenAIProvider? ==>
      var reply := net.chat(OpenAI.ReviewChat(changes));
      && (r.Panicked? <==> reply == Ok(ChatResponse([])))
      && (r.Succeeded() <==> reply.Ok? && |reply.value.choices| > 0)
      && (r.Succeeded() ==> r.result.value == reply.value.choices[0])
  {
    match p
    case OpenAIProvider(_) =>
      var (res, cs) := OpenAI.ReviewCode(net, changes);
      r, calls := res, cs;
    case OllamaProvider(a) =>
      var res;
      res, calls := Ollama.ReviewCode(a, net, changes);
      r := Returned(res);
  }

  /** `Provider.GenerateReviewSummary`, dispatched to the configured backend, with the
      same guarantees and Ollama's shorter gate. */
  method GenerateReviewSummary(p: Provider, net: Network, review: string)
    returns (r: Reply<string>, calls: seq<Call>)
    ensures calls == [SummaryCall(p, review)]
    ensures p.OllamaProvider? ==>
      var reply := net.post(Ollama.Endpoint(p.adapter), "application/json", Ollama.SummaryRequest(p.adapter, review));
      && r.Returned?
      && (r.Succeeded() <==> Ollama.Answered(reply) && ByteLen(Ollama.AnswerText(reply)) >= Ollama.MinSummaryBytes)
      && (r.Succeeded() ==> r.result.value == Ollama.AnswerText(reply))
    ensures p.OpenAIProvider? ==>
      var reply := net.chat(OpenAI.SummaryChat(review));
      && (r.Panicked? <==> reply == Ok(ChatResponse([])))
      && (r.Succeeded() <==> reply.Ok? && |reply.value.choices| > 0)
      && (r.Succeeded() ==> r.result.value == reply.value.choices[0])
  {
    match p
    case OpenAIProvider(_) =>
      var (res, cs) := OpenAI.GenerateReviewSummary(net, review);
      r, calls := res, cs;
    case OllamaProvider(a) =>
      var res;
      res, calls := Ollama.GenerateReviewSummary(a, net, review);
      r := Returned(res);
  }
}

=== FILE: changes.dfy ===
/** The per-file change string both VCS clients hand to the AI backend:
    `fmt.Sprintf("File: %s\nPatch:\n%s", name, patch)`. */
module Changes {
  import opened Errors
  import opened Text

  function Entry(filename: string, patch: string): (e: string)
    ensures |e| == |filename| + |patch| + 14
    ensures "File: " <= e && e[6..6 + |filename|] == filename
    ensures e[|e| - |patch|..] == patch
  {
    "File: " + filename + "\nPatch:\n" + patch
  }

  /** Reads a change string back into its file name and patch. */
  function ParseEntry(e: string): Option<(string, string)>
  {
    match StripPrefix(e, "File: ")
    case None => None
    case Some(rest) =>
      match Cut(rest, '\n')
      case None => None
      case Some((name, tail)) =>
        match StripPrefix(tail, "Patch:\n")
        case None => None
        case Some(patch) => Some((name, patch))
  }

  /** The format is unambiguous: as long as the file name holds no newline, the entry
      gives back exactly the file name and the patch (the patch may hold anything). */
  lemma {:induction false} EntryRoundTrip(filename: string, patch: string)
    requires '\n' !in filename
    ensures ParseEntry(Entry(filename, patch)) == Some((filename, patch))
  {
    var tail := "Patch:\n" + patch;
    var e := Entry(filename, patch);
    assert e == "File: " + (filename + ['\n'] + tail);
    assert StripPrefix(e, "File: ") == Some(filename + ['\n'] + tail);
    CutAfter(filename, '\n', tail);
    assert StripPrefix(tail, "Patch:\n") == Some(patch);
  }

  /** Conversely, whatever parses is the entry of what it parses to. */
  lemma ParsedIsEntry(e: string)
    requires ParseEntry(e).Some?
    ensures '\n' !in ParseEntry(e).value.0
    ensures Entry(ParseEntry(e).value.0, ParseEntry(e).value.1) == e
  {
    var rest := StripPrefix(e, "File: ").value;
    var cut := Cut(rest, '\n').value;
    var patch := StripPrefix(cut.1, "Patch:\n").value;
    assert e == "File: " + (cut.0 + ['\n'] + ("Patch:\n" + patch));
    assert "File: " + (cut.0 + ['\n'] + ("Patch:\n" + patch)) == "File: " + cut.0 + "\nPatch:\n" + patch;
  }
}

=== FILE: config.dfy ===
/** The process environment as the core reads it through `os.Getenv`. */
module Config {

  datatype Env = Env(vars: map<string, string>)

  /** `os.Getenv(key)`: the value, or "" when the variable is unset (an unset and an
      empty variable are indistinguishable to the core). */
  function Getenv(env: Env, key: string): string
  {
    if key in env.vars then env.vars[key] else ""
  }
}

=== FILE: encoding.dfy ===
/** Bytes, Go's UTF-8 view of strings (`len(s)`, `[]byte(s)`) and lowercase hex
    (`hex.EncodeToString`). */
module Encoding {
  import opened Errors

  newtype byte = x: int | 0 <= x < 256

  /** The UTF-8 encoding of one Unicode scalar value. */
  function EncodeChar(c: char): (r: seq<byte>)
    ensures 1 <= |r| <= 4
    ensures c as int < 0x80 <==> |r| == 1
    ensures c as int < 0x80 ==> r[0] as int == c as int
    ensures c as int >= 0x80 ==> r[0] >= 0xC0
  {
    var n := c as int;
    if n < 0x80 then [n as byte]
    else if n < 0x800 then [(0xC0 + n / 0x40) as byte, (0x80 + n % 0x40) as byte]
    else if n < 0x10000 then
      [(0xE0 + n / 0x1000) as byte, (0x80 + (n / 0x40) % 0x40) as byte, (0x80 + n % 0x40) as byte]
    else
      [(0xF0 + n / 0x40000) as byte, (0x80 + (n / 0x1000) % 0x40) as byte,
       (0x80 + (n / 0x40) % 0x40) as byte, (0x80 + n % 0x40) as byte]
  }

  /** `[]byte(s)`: the UTF-8 bytes of a string. */
  function Utf8(s: string): seq<byte>
  {
    if |s| == 0 then [] else EncodeChar(s[0]) + Utf8(s[1..])
  }

  /** Go's `len(s)` on a string: its number of UTF-8 bytes. */
  function ByteLen(s: string): nat
  {
    |Utf8(s)|
  }

  predicate IsAscii(s: string)
  {
    forall i :: 0 <= i < |s| ==> s[i] as int < 0x80
  }

  /** A string is never shorter in bytes than in characters, and at most four times longer. */
  lemma {:induction false} ByteLenBounds(s: string)
    ensures |s| <= ByteLen(s) <= 4 * |s|
    ensures IsAscii(s) ==> ByteLen(s) == |s|
  {
    if |s| > 0 {
      ByteLenBounds(s[1..]);
      assert IsAscii(s) ==> IsAscii(s[1..]) by {
        if IsAscii(s) {
          forall i | 0 <= i < |s[1..]| ensures s[1..][i] as int < 0x80 {
            assert s[1..][i] == s[i + 1];
          }
        }
      }
    }
  }

  /** Comparing the UTF-8 bytes of any string with those of an ASCII string is the
      same as comparing the strings. */
  lemma {:induction false} Utf8EqualAscii(s: string, t: string)
    requires IsAscii(t)
    ensures Utf8(s) == Utf8(t) <==> s == t
  {
    if |t| == 0 {
      if |s| > 0 {
        assert |Utf8(s)| >= 1;
      }
    } else if |s| == 0 {
      assert |Utf8(t)| >= 1;
    } else {
      var es, et := EncodeChar(s[0]), EncodeChar(t[0]);
      assert et == [t[0] as int as byte];
      assert IsAscii(t[1..]) by {
        forall i | 0 <= i < |t[1..]| ensures t[1..][i] as int < 0x80 {
          assert t[1..][i] == t[i + 1];
        }
      }
      Utf8EqualAscii(s[1..], t[1..]);
      if Utf8(s) == Utf8(t) {
        assert Utf8(s)[0] == es[0] && Utf8(t)[0] == et[0];
        assert s[0] as int < 0x80;
        assert s[0] == t[0];
        assert Utf8(s)[1..] == Utf8(s[1..]);
        assert Utf8(t)[1..] == Utf8(t[1..]);
        assert s == [s[0]] + s[1..] && t == [t[0]] + t[1..];
      }
    }
  }

  lemma AsciiConcat(a: string, b: string)
    requires IsAscii(a) && IsAscii(b)
    ensures IsAscii(a + b)
  {
  }

  const HexDigits: string := "0123456789abcdef"

  /** `hex.EncodeToString`: two lowercase hex digits per byte, high nibble first. */
  function HexEncode(b: seq<byte>): (s: string)
    ensures |s| == 2 * |b|
    ensures IsAscii(s)
  {
    if |b| == 0 then ""
    else [HexDigits[b[0] as int / 16], HexDigits[b[0] as int % 16]] + HexEncode(b[1..])
  }

  function HexValue(c: char): (r: Option<nat>)
    ensures r.Some? ==> r.value < 16
  {
    if '0' <= c <= '9' then Some(c as int - '0' as int)
    else if 'a' <= c <= 'f' then Some(c as int - 'a' as int + 10)
    else None
  }

  /** The byte whose high and low nibbles are `hi` and `lo`. */
  function Pack(hi: nat, lo: nat): byte
    requires hi < 16 && lo < 16
  {
    (hi * 16 + lo) as byte
  }

  /** The inverse of HexEncode: lowercase digit pairs back to bytes. */
  function HexDecode(s: string): Option<seq<byte>>
  {
    if |s| < 2 then (if |s| == 0 then Some([]) else None)
    else
      var hi, lo := HexValue(s[0]), HexValue(s[1]);
      if hi.None? || lo.None? then None
      else match HexDecode(s[2..])
        case None => None
        case Some(rest) => Some([Pack(hi.value, lo.value)] + rest)
  }

  lemma HexDigitValue(d: nat)
    requires d < 16
    ensures HexValue(HexDigits[d]) == Some(d)
  {
  }

  lemma PackNibbles(x: byte)
    ensures x as int / 16 < 16 && Pack(x as int / 16, x as int % 16) == x
  {
  }

  /** Hex decoding undoes hex encoding, so two digests hex-encode alike only when they are equal. */
  lemma {:induction false} HexRoundTrip(b: seq<byte>)
    ensures HexDecode(HexEncode(b)) == Some(b)
  {
    if |b| > 0 {
      var s := HexEncode(b);
      var hi, lo := b[0] as int / 16, b[0] as int % 16;
      PackNibbles(b[0]);
      HexDigitValue(hi);
      HexDigitValue(lo);
      assert s[0] == HexDigits[hi] && s[1] == HexDigits[lo];
      assert s[2..] == HexEncode(b[1..]);
      HexRoundTrip(b[1..]);
      assert HexDecode(s) == Some([Pack(hi, lo)] + b[1..]);
      assert [b[0]] + b[1..] == b;
    }
  }

  lemma HexInjective(a: seq<byte>, b: seq<byte>)
    ensures HexEncode(a) == HexEncode(b) <==> a == b
  {
    HexRoundTrip(a);
    HexRoundTrip(b);
  }
}

=== FILE: errors.dfy ===
/** Result types for Go's `(value, error)` returns and for calls that can panic. */
module Errors {

  datatype Option<+T> = None | Some(value: T)

  /** A Go `(T, error)` pair: a value with a nil error, or a non-nil error carrying its message. */
  datatype Result<+T> = Ok(value: T) | Err(msg: string)

  /** What a Go call does when it may also panic (nil pointer receiver, index out of range):
      it either returns a `Result`, or the goroutine panics and takes the process down. */
  datatype Reply<+T> = Returned(result: Result<T>) | Panicked(reason: string)
  {
    predicate Succeeded() { Returned? && result.Ok? }
  }

  const NilDereference: string := "invalid memory address or nil pointer dereference"
  const IndexOutOfRange: string := "index out of range [0] with length 0"
}

=== FILE: gate.dfy ===
/** The decisions of the webhook endpoint (main.go): which host the gate speaks for,
    whether a delivery is authentic, and what a verified payload leads to. */
module Gate {
  import opened Errors
  import opened Config
  import opened Encoding
  import opened Types
  import Vcs

  /** Request headers as net/http keeps them: by name, first value only. */
  type Headers = map<string, string>

  /** HMAC-SHA256 (RFC 2104) of a message under a key, taken as given. */
  type Mac = (seq<byte>, seq<byte>) -> seq<byte>

  /** `Header.Get`: the first value under the name, or "". */
  function Header(h: Headers, name: string): string
  {
    if name in h then h[name] else ""
  }

  /** The host a delivery is verified and decoded for: VCS_PROVIDER, "github" when
      empty. Only the exact value "gitlab" selects GitLab. */
  function ProviderType(env: Env): string
  {
    if Getenv(env, "VCS_PROVIDER") == "" then "github" else Getenv(env, "VCS_PROVIDER")
  }

  predicate UsesGitLab(env: Env)
  {
    ProviderType(env) == "gitlab"
  }

  /** The gate and the factory agree on the host whenever the factory accepts the
      configuration; any other value sends deliveries down the GitHub path, but then the
      factory has refused to build a provider at all. */
  lemma RoutingAgreesWithFactory(env: Env)
    ensures UsesGitLab(env) <==> Getenv(env, "VCS_PROVIDER") == "gitlab"
    ensures Vcs.NewProvider(env).Ok? ==> (UsesGitLab(env) <==> Vcs.NewProvider(env).value.GitLabProvider?)
    ensures Getenv(env, "VCS_PROVIDER") !in {"", "github", "gitlab"} ==> !UsesGitLab(env) && Vcs.NewProvider(env).Err?
  {
  }

  /** `"sha256=" + hex(HMAC-SHA256(secret, body))`, the value GitHub sends. */
  function ExpectedSignature(mac: Mac, secret: string, body: seq<byte>): (s: string)
    ensures IsAscii(s)
    ensures |s| == 7 + 2 * |mac(Utf8(secret), body)| && s[..7] == "sha256="
  {
    AsciiConcat("sha256=", HexEncode(mac(Utf8(secret), body)));
    "sha256=" + HexEncode(mac(Utf8(secret), body))
  }

  /** `verifyGitHubWebhook`: with no secret configured every delivery passes; otherwise
      the signature header must be present, the body readable, and the header must equal
      the expected signature. */
  predicate GitHubSignatureOk(env: Env, h: Headers, body: seq<byte>, readable: bool, mac: Mac): (ok: bool)
    ensures Getenv(env, "GITHUB_WEBHOOK_SECRET") == "" ==> ok
    ensures ok && Getenv(env, "GITHUB_WEBHOOK_SECRET") != "" ==>
      readable && "sha256=" <= Header(h, "X-Hub-Signature-256")
      && |Header(h, "X-Hub-Signature-256")| == 7 + 2 * |mac(Utf8(Getenv(env, "GITHUB_WEBHOOK_SECRET")), body)|
  {
    var secret := Getenv(env, "GITHUB_WEBHOOK_SECRET");
    var signature := Header(h, "X-Hub-Signature-256");
    secret == "" || (signature != "" && readable && signature == ExpectedSignature(mac, secret, body))
  }

  /** `verifyGitLabWebhook`: with no token configured every delivery passes; otherwise the
      token header must be present and equal the configured token. */
  predicate GitLabTokenOk(env: Env, h: Headers): (ok: bool)
    ensures Getenv(env, "GITLAB_WEBHOOK_TOKEN") == "" ==> ok
    ensures ok && Getenv(env, "GITLAB_WEBHOOK_TOKEN") != "" ==> Header(h, "X-GitLab-Token") == Getenv(env, "GITLAB_WEBHOOK_TOKEN")
  {
    var token := Getenv(env, "GITLAB_WEBHOOK_TOKEN");
    var signature := Header(h, "X-GitLab-Token");
    token == "" || (signature != "" && signature == token)
  }

  /** `verifyWebhookSignature`: the check of the configured host. Only the GitHub check
      depends on the body, and only when a secret is set. */
  predicate Verified(env: Env, h: Headers, body: seq<byte>, readable: bool, mac: Mac): (ok: bool)
    ensures UsesGitLab(env) ==> (ok <==> GitLabTokenOk(env, h))
    ensures !UsesGitLab(env) && Getenv(env, "GITHUB_WEBHOOK_SECRET") == "" ==> ok
    ensures !UsesGitLab(env) && Getenv(env, "GITHUB_WEBHOOK_SECRET") != "" && ok ==> readable
  {
    if UsesGitLab(env) then GitLabTokenOk(env, h) else GitHubSignatureOk(env, h, body, readable, mac)
  }

  /** With a secret configured, a GitHub delivery passes exactly when its body can be read
      and its header equals the expected signature; the explicit test for a missing
      header never decides anything on its own, since the expected value is never empty. */
  lemma GitHubSignatureRequired(env: Env, h: Headers, body: seq<byte>, readable: bool, mac: Mac)
    requires Getenv(env, "GITHUB_WEBHOOK_SECRET") != ""
    ensures GitHubSignatureOk(env, h, body, readable, mac) <==>
      readable && Header(h, "X-Hub-Signature-256") == ExpectedSignature(mac, Getenv(env, "GITHUB_WEBHOOK_SECRET"), body)
  {
    var expected := ExpectedSignature(mac, Getenv(env, "GITHUB_WEBHOOK_SECRET"), body);
    assert expected[..7] == "sha256=";
  }

  /** The byte comparison the handler performs (`hmac.Equal` on `[]byte(signature)` and
      `[]byte(expected)`) decides the same as comparing the strings, because the expected
      signature is ASCII. */
  lemma ByteComparisonIsStringComparison(signature: string, mac: Mac, secret: string, body: seq<byte>)
    ensures Utf8(signature) == Utf8(ExpectedSignature(mac, secret, body)) <==> signature == ExpectedSignature(mac, secret, body)
  {
    Utf8EqualAscii(signature, ExpectedSignature(mac, secret, body));
  }

  /** A signature whose digest part is not lowercase hex is refused whatever the secret,
      the body and the MAC; this is why the delivery signed `sha256=test-signature` gets
      401 once a secret is set. */
  lemma NonHexSignatureRejected(env: Env, h: Headers, body: seq<byte>, readable: bool, mac: Mac)
    requires Getenv(env, "GITHUB_WEBHOOK_SECRET") != ""
    requires var sig := Header(h, "X-Hub-Signature-256"); |sig| >= 7 && HexDecode(sig[7..]).None?
    ensures !GitHubSignatureOk(env, h, body, readable, mac)
  {
    var sig := Header(h, "X-Hub-Signature-256");
    var expected := ExpectedSignature(mac, Getenv(env, "GITHUB_WEBHOOK_SECRET"), body);
    HexRoundTrip(mac(Utf8(Getenv(env, "GITHUB_WEBHOOK_SECRET")), body));
    assert expected[7..] == HexEncode(mac(Utf8(Getenv(env, "GITHUB_WEBHOOK_SECRET")), body));
    assert HexDecode(expected[7..]).Some?;
    assert sig != expected;
  }

  lemma TestSignatureIsNotHex()
    ensures HexDecode("sha256=test-signature"[7..]).None?
  {
    assert "sha256=test-signature"[7..] == "test-signature";
    assert HexValue('t').None?;
  }

  /** With a token configured, a GitLab delivery passes exactly when its token header
      equals the configured token. */
  lemma GitLabTokenRequired(env: Env, h: Headers)
    requires Getenv(env, "GITLAB_WEBHOOK_TOKEN") != ""
    ensures GitLabTokenOk(env, h) <==> Header(h, "X-GitLab-Token") == Getenv(env, "GITLAB_WEBHOOK_TOKEN")
  {
  }

  /** What a delivery leads to. */
  datatype Dispatch = Dispatch(number: int, repo: string, title: string, url: string)

  datatype Verdict = Unauthorized | BadPayload | Ignored | Accepted(job: Dispatch)

  function Status(v: Verdict): int
  {
    match v
    case Unauthorized => 401
    case BadPayload => 400
    case _ => 200
  }

  /** The body `http.Error` writes (the message and a newline); nothing otherwise. */
  function ErrorText(v: Verdict): string
  {
    match v
    case Unauthorized => "Invalid signature\n"
    case BadPayload => "Invalid payload\n"
    case _ => ""
  }

  /** `handleGitHubWebhook` after decoding: only opened and reopened pull requests are
      reviewed, with number, title and html_url from `pull_request` and the repository's
      full name. */
  function GitHubVerdict(w: Result<PRWebhook>): (v: Verdict)
    ensures v != Unauthorized
    ensures v == BadPayload <==> w.Err?
    ensures v.Accepted? <==> w.Ok? && w.value.action in {"opened", "reopened"}
    ensures v.Accepted? ==> v.job.number == w.value.pullRequest.number && v.job.repo == w.value.repository.fullName
  {
    match w
    case Err(_) => BadPayload
    case Ok(hook) =>
      if hook.action != "opened" && hook.action != "reopened" then Ignored
      else Accepted(Dispatch(hook.pullRequest.number, hook.repository.fullName, hook.pullRequest.title, hook.pullRequest.url))
  }

  /** `handleGitLabWebhook` after decoding: only merge request events whose action is open
      or reopen are reviewed, with the project-scoped iid, the project path, the title and
      the url. */
  function GitLabVerdict(w: Result<GitLabWebhook>): (v: Verdict)
    ensures v != Unauthorized
    ensures v == BadPayload <==> w.Err?
    ensures v.Accepted? <==>
      w.Ok? && w.value.objectKind == "merge_request" && w.value.objectAttributes.action in {"open", "reopen"}
    ensures v.Accepted? ==> v.job.number == w.value.objectAttributes.iid && v.job.repo == w.value.project.pathWithNamespace
  {
    match w
    case Err(_) => BadPayload
    case Ok(hook) =>
      if hook.objectKind != "merge_request" then Ignored
      else if hook.objectAttributes.action != "open" && hook.objectAttributes.action != "reopen" then Ignored
      else Accepted(Dispatch(hook.objectAttributes.iid, hook.project.pathWithNamespace,
                             hook.objectAttributes.title, hook.objectAttributes.url))
  }

  /** `handleWebhook` as a decision: verify, then read the body, then decode and filter
      for the configured host. `readable` says whether the request body can be read. */
  function Route(env: Env, h: Headers, body: seq<byte>, readable: bool, mac: Mac,
                 decodeGitHub: seq<byte> -> Result<PRWebhook>,
                 decodeGitLab: seq<byte> -> Result<GitLabWebhook>): (v: Verdict)
    ensures v == Unauthorized <==> !Verified(env, h, body, readable, mac)
    ensures v.Accepted? ==> Verified(env, h, body, readable, mac) && readable
    ensures v.Accepted? ==> v == (if UsesGitLab(env) then GitLabVerdict(decodeGitLab(body)) else GitHubVerdict(decodeGitHub(body)))
  {
    if !Verified(env, h, body, readable, mac) then Unauthorized
    else if !readable then BadPayload
    else if UsesGitLab(env) then GitLabVerdict(decodeGitLab(body))
    else GitHubVerdict(decodeGitHub(body))
  }

  /** With no secret (GitHub) or token (GitLab) configured, no delivery is refused as
      unauthentic, whatever its headers. */
  lemma UnconfiguredGateIsOpen(env: Env, h: Headers, body: seq<byte>, readable: bool, mac: Mac,
                               decodeGitHub: seq<byte> -> Result<PRWebhook>,
                               decodeGitLab: seq<byte> -> Result<GitLabWebhook>)
    requires if UsesGitLab(env) then Getenv(env, "GITLAB_WEBHOOK_TOKEN") == ""
             else Getenv(env, "GITHUB_WEBHOOK_SECRET") == ""
    ensures Route(env, h, body, readable, mac, decodeGitHub, decodeGitLab) != Unauthorized
  {
  }

  /** A delivery on the GitHub path whose signature has a non-hex digest gets 401 and
      is not dispatched once a secret is set. */
  lemma ForgedGitHubDeliveryRefused(env: Env, h: Headers, body: seq<byte>, readable: bool, mac: Mac,
                                    decodeGitHub: seq<byte> -> Result<PRWebhook>,
                                    decodeGitLab: seq<byte> -> Result<GitLabWebhook>)
    requires !UsesGitLab(env) && Getenv(env, "GITHUB_WEBHOOK_SECRET") != ""
    requires Header(h, "X-Hub-Signature-256") == "sha256=test-signature"
    ensures Route(env, h, body, readable, mac, decodeGitHub, decodeGitLab) == Unauthorized
    ensures Status(Route(env, h, body, readable, mac, decodeGitHub, decodeGitLab)) == 401
  {
    TestSignatureIsNotHex();
    NonHexSignatureRejected(env, h, body, readable, mac);
  }

  /** On the GitHub path, a verified and decodable delivery is dispatched exactly when its
      action is opened or reopened, and every other action is acknowledged with 200 and
      nothing else; the dispatch carries the pull request's number, full repository name,
      title and html_url. */
  lemma GitHubDispatchFilter(env: Env, h: Headers, body: seq<byte>, readable: bool, mac: Mac,
                             decodeGitHub: seq<byte> -> Result<PRWebhook>,
                             decodeGitLab: seq<byte> -> Result<GitLabWebhook>)
    requires !UsesGitLab(env) && Verified(env, h, body, readable, mac) && readable
    requires decodeGitHub(body).Ok?
    ensures var v, hook := Route(env, h, body, readable, mac, decodeGitHub, decodeGitLab), decodeGitHub(body).value;
      && (v.Accepted? <==> hook.action in {"opened", "reopened"})
      && (!v.Accepted? ==> v == Ignored && Status(v) == 200)
      && (v.Accepted? ==> v.job.number == hook.pullRequest.number && v.job.repo == hook.repository.fullName
                          && v.job.title == hook.pullRequest.title && v.job.url == hook.pullRequest.url)
  {
  }

  /** On the GitLab path, a verified and decodable delivery is dispatched exactly when it is
      a merge request event whose action is open or reopen; the dispatch carries the iid
      (not the global id) and the project's path with namespace. */
  lemma GitLabDispatchFilter(env: Env, h: Headers, body: seq<byte>, readable: bool, mac: Mac,
                             decodeGitHub: seq<byte> -> Result<PRWebhook>,
                             decodeGitLab: seq<byte> -> Result<GitLabWebhook>)
    requires UsesGitLab(env) && Verified(env, h, body, readable, mac) && readable
    requires decodeGitLab(body).Ok?
    ensures var v, hook := Route(env, h, body, readable, mac, decodeGitHub, decodeGitLab), decodeGitLab(body).value;
      && (v.Accepted? <==> hook.objectKind == "merge_request" && hook.objectAttributes.action in {"open", "reopen"})
      && (!v.Accepted? ==> v == Ignored && Status(v) == 200)
      && (v.Accepted? ==> v.job.number == hook.objectAttributes.iid && v.job.repo == hook.project.pathWithNamespace
                          && v.job.title == hook.objectAttributes.title && v.job.url == hook.objectAttributes.url)
  {
  }

  /** A refused or undecodable delivery is never dispatched; 400 means the body could not
      be read or decoded for the configured host. */
  lemma RefusalsDoNotDispatch(env: Env, h: Headers, body: seq<byte>, readable: bool, mac: Mac,
                              decodeGitHub: seq<byte> -> Result<PRWebhook>,
                              decodeGitLab: seq<byte> -> Result<GitLabWebhook>)
    ensures var v := Route(env, h, body, readable, mac, decodeGitHub, decodeGitLab);
      && (v.Accepted? ==> Verified(env, h, body, readable, mac) && readable && Status(v) == 200)
      && (Status(v) == 401 <==> !Verified(env, h, body, readable, mac))
      && (Status(v) == 400 <==>
            (Verified(env, h, body, readable, mac)
             && (!readable || (if UsesGitLab(env) then decodeGitLab(body).Err? else decodeGitHub(body).Err?))))
  {
  }
}

=== FILE: github.dfy ===
/** The GitHub variant of the VCS backend (github/client.go). */
module GitHub {
  import opened Errors
  import opened Text
  import opened Config
  import opened Wire
  import Changes

  /** `*github.Client`. `NilClient` is the nil pointer `NewClient` returns when no
      token is configured; its methods still run until they first touch the SDK. */
  datatype Client = NilClient | Client(token: string)

  function NewClient(env: Env): (c: Client)
    ensures c.NilClient? <==> Getenv(env, "GITHUB_TOKEN") == ""
    ensures c.Client? ==> c.token == Getenv(env, "GITHUB_TOKEN")
  {
    var token := Getenv(env, "GITHUB_TOKEN");
    if token == "" then NilClient else Client(token)
  }

  /** `strings.Split(repo, "/")` must give exactly two parts, the owner and the name. */
  function SplitRepo(repo: string): (r: Result<(string, string)>)
    ensures r.Ok? <==> Count(repo, '/') == 1
    ensures r.Ok? ==> r.value.0 + "/" + r.value.1 == repo && '/' !in r.value.0 && '/' !in r.value.1
    ensures r.Err? ==> r.msg == "invalid repository format: " + repo
  {
    var parts := Split(repo, '/');
    JoinSplit(repo, '/');
    if |parts| != 2 then Err("invalid repository format: " + repo)
    else
      assert Join(parts, "/") == parts[0] + "/" + Join(parts[1..], "/");
      Ok((parts[0], parts[1]))
  }

  /** Every `owner/name` pair without a further slash is accepted and split back apart. */
  lemma SplitRepoRoundTrip(owner: string, name: string)
    requires '/' !in owner && '/' !in name
    ensures SplitRepo(owner + "/" + name) == Ok((owner, name))
  {
    SplitAfter(owner, '/', name);
    SplitNone(name, '/');
  }

  /** `GetChanges`: validates the repository string before any request, lists the
      pull request's files and renders one change string per file, in host order. */
  method GetChanges(c: Client, net: Network, repo: string, number: int)
    returns (r: Reply<seq<string>>, calls: seq<Call>)
    ensures SplitRepo(repo).Err? ==> r == Returned(Err(SplitRepo(repo).msg)) && calls == []
    ensures SplitRepo(repo).Ok? && c.NilClient? ==> r == Panicked(NilDereference) && calls == []
    ensures SplitRepo(repo).Ok? && c.Client? ==>
      var owner, name := SplitRepo(repo).value.0, SplitRepo(repo).value.1;
      calls == [ListFiles(owner, name, number)] &&
      match net.listFiles(owner, name, number)
      case Err(e) => r == Returned(Err("failed to get PR changes: " + e))
      case Ok(files) =>
        r.Succeeded() && |r.result.value| == |files| &&
        forall i :: 0 <= i < |files| ==>
          r.result.value[i] == Changes.Entry(files[i].Filename(), files[i].Patch())
  {
    calls := [];
    var split := SplitRepo(repo);
    if split.Err? {
      return Returned(Err(split.msg)), calls;
    }
    var owner, name := split.value.0, split.value.1;
    if c.NilClient? {
      return Panicked(NilDereference), calls;
    }
    calls := [ListFiles(owner, name, number)];
    var listed := net.listFiles(owner, name, number);
    if listed.Err? {
      return Returned(Err("failed to get PR changes: " + listed.msg)), calls;
    }
    var files := listed.value;
    var changes: seq<string> := [];
    for i := 0 to |files|
      invariant |changes| == i
      invariant forall j :: 0 <= j < i ==> changes[j] == Changes.Entry(files[j].Filename(), files[j].Patch())
    {
      changes := changes + [Changes.Entry(files[i].Filename(), files[i].Patch())];
    }
    r := Returned(Ok(changes));
  }

  /** `CreateReview`: validates the repository string, fetches the pull request to learn
      its author, then posts the review text with event COMMENT when the author is the
      configured bot and REQUEST_CHANGES otherwise. */
  method CreateReview(c: Client, env: Env, net: Network, repo: string, number: int, review: string)
    returns (r: Reply<()>, calls: seq<Call>)
    ensures SplitRepo(repo).Err? ==> r == Returned(Err(SplitRepo(repo).msg)) && calls == []
    ensures SplitRepo(repo).Ok? && c.NilClient? ==> r == Panicked(NilDereference) && calls == []
    ensures SplitRepo(repo).Ok? && c.Client? ==>
      var owner, name := SplitRepo(repo).value.0, SplitRepo(repo).value.1;
      |calls| >= 1 && calls[0] == GetPull(owner, name, number) &&
      match net.getPull(owner, name, number)
      case Err(e) => |calls| == 1 && r == Returned(Err("failed to get PR details: " + e))
      case Ok(pr) =>
        var bot := Getenv(env, "GITHUB_BOT_USERNAME");
        |calls| == 2 && calls[1].CreatePullReview? &&
        calls[1].owner == owner && calls[1].repo == name && calls[1].number == number &&
        calls[1].request.body == review &&
        (calls[1].request.event == "COMMENT" <==> bot != "" && pr.Login() == bot) &&
        (calls[1].request.event == "COMMENT" || calls[1].request.event == "REQUEST_CHANGES") &&
        match net.createPullReview(owner, name, number, calls[1].request)
        case Err(e) => r == Returned(Err("failed to create PR review: " + e))
        case Ok(_) => r == Returned(Ok(()))
  {
    calls := [];
    var split := SplitRepo(repo);
    if split.Err? {
      return Returned(Err(split.msg)), calls;
    }
    var owner, name := split.value.0, split.value.1;
    if c.NilClient? {
      return Panicked(NilDereference), calls;
    }
    calls := [GetPull(owner, name, number)];
    var pr := net.getPull(owner, name, number);
    if pr.Err? {
      return Returned(Err("failed to get PR details: " + pr.msg)), calls;
    }
    var event := "REQUEST_CHANGES";
    var botUsername := Getenv(env, "GITHUB_BOT_USERNAME");
    if botUsername != "" && pr.value.Login() == botUsername {
      event := "COMMENT";
    }
    var request := ReviewRequest(review, event);
    calls := calls + [CreatePullReview(owner, name, number, request)];
    var created := net.createPullReview(owner, name, number, request);
    if created.Err? {
      return Returned(Err("failed to create PR review: " + created.msg)), calls;
    }
    r := Returned(Ok(()));
  }
}

=== FILE: gitlab.dfy ===
/** The GitLab variant of the VCS backend (gitlab/client.go). The repository string is
    passed to the API as the project path, unvalidated and unsplit. */
module GitLab {
  import opened Errors
  import opened Config
  import opened Wire
  import Changes

  /** `*gitlab.Client`. `NilClient` is the nil pointer `NewClient` returns when no token
      is configured. (`gitlab.NewClient(token)` with no options cannot fail.) */
  datatype Client = NilClient | Client(token: string)

  function NewClient(env: Env): (c: Client)
    ensures c.NilClient? <==> Getenv(env, "GITLAB_TOKEN") == ""
    ensures c.Client? ==> c.token == Getenv(env, "GITLAB_TOKEN")
  {
    var token := Getenv(env, "GITLAB_TOKEN");
    if token == "" then NilClient else Client(token)
  }

  /** `GetChanges`: lists the merge request's diffs and renders one change string per
      diff, in order, from its new path and diff text. */
  method GetChanges(c: Client, net: Network, repo: string, number: int)
    returns (r: Reply<seq<string>>, calls: seq<Call>)
    ensures c.NilClient? ==> r == Panicked(NilDereference) && calls == []
    ensures c.Client? ==>
      calls == [ListDiffs(repo, number)] &&
      match net.listDiffs(repo, number)
      case Err(e) => r == Returned(Err("failed to get MR changes: " + e))
      case Ok(diffs) =>
        r.Succeeded() && |r.result.value| == |diffs| &&
        forall i :: 0 <= i < |diffs| ==>
          r.result.value[i] == Changes.Entry(diffs[i].newPath, diffs[i].diff)
  {
    calls := [];
    if c.NilClient? {
      return Panicked(NilDereference), calls;
    }
    calls := [ListDiffs(repo, number)];
    var listed := net.listDiffs(repo, number);
    if listed.Err? {
      return Returned(Err("failed to get MR changes: " + listed.msg)), calls;
    }
    var diffs := listed.value;
    var changes: seq<string> := [];
    for i := 0 to |diffs|
      invariant |changes| == i
      invariant forall j :: 0 <= j < i ==> changes[j] == Changes.Entry(diffs[j].newPath, diffs[j].diff)
    {
      changes := changes + [Changes.Entry(diffs[i].newPath, diffs[i].diff)];
    }
    r := Returned(Ok(changes));
  }

  /** `CreateReview`: posts the review text, as it is, as a plain merge-request note
      (there is no review event on GitLab). */
  method CreateReview(c: Client, net: Network, repo: string, number: int, review: string)
    returns (r: Reply<()>, calls: seq<Call>)
    ensures c.NilClient? ==> r == Panicked(NilDereference) && calls == []
    ensures c.Client? ==>
      calls == [CreateNote(repo, number, review)] &&
      match net.createNote(repo, number, review)
      case Err(e) => r == Returned(Err("failed to create MR review: " + e))
      case Ok(_) => r == Returned(Ok(()))
  {
    calls := [];
    if c.NilClient? {
      return Panicked(NilDereference), calls;
    }
    calls := [CreateNote(repo, number, review)];
    var created := net.createNote(repo, number, review);
    if created.Err? {
      return Returned(Err("failed to create MR review: " + created.msg)), calls;
    }
    r := Returned(Ok(()));
  }
}

=== FILE: ollama.dfy ===
/** The local-inference variant of the AI backend (ai/ollama_adapter.go). */
module Ollama {
  import opened Errors
  import opened Text
  import opened Config
  import opened Encoding
  import opened Wire

  /** `*OllamaAdapter`: where the server is and which model it runs. */
  datatype Adapter = Adapter(baseURL: string, model: string)

  const DefaultBaseURL: string := "http://localhost:11434"
  const DefaultModel: string := "codellama"

  /** `NewOllamaAdapter`: OLLAMA_BASE_URL and OLLAMA_MODEL, each defaulted when empty. */
  function NewAdapter(env: Env): (a: Adapter)
    ensures Getenv(env, "OLLAMA_BASE_URL") == "" ==> a.baseURL == DefaultBaseURL
    ensures Getenv(env, "OLLAMA_BASE_URL") != "" ==> a.baseURL == Getenv(env, "OLLAMA_BASE_URL")
    ensures Getenv(env, "OLLAMA_MODEL") == "" ==> a.model == DefaultModel
    ensures Getenv(env, "OLLAMA_MODEL") != "" ==> a.model == Getenv(env, "OLLAMA_MODEL")
    ensures a.baseURL != "" && a.model != ""
  {
    var baseURL := Getenv(env, "OLLAMA_BASE_URL");
    var model := Getenv(env, "OLLAMA_MODEL");
    Adapter(if baseURL == "" then DefaultBaseURL else baseURL, if model == "" then DefaultModel else model)
  }

  const ReviewPreamble: string :=
    "You are an experienced code reviewer. Please review the following code changes and provide a detailed review.\n"
    + "Focus on:\n"
    + "1. Code quality and best practices\n"
    + "2. Potential bugs or issues\n"
    + "3. Security concerns\n"
    + "4. Performance implications\n"
    + "5. Maintainability\n"
    + "\n"
    + "Format your response in markdown with clear sections.\n"
    + "\n"
    + "Code changes to review:\n"

  const ReviewSystem: string :=
    "You are an expert code reviewer with deep knowledge of software engineering best practices. "
    + "Provide detailed, actionable feedback on code changes."

  const SummaryPreamble: string :=
    "You are a technical writer. Please provide a concise summary (2-3 sentences) of the following code review.\n"
    + "Focus on the key points and main recommendations.\n"
    + "\n"
    + "Code review to summarize:\n"

  const SummarySystem: string :=
    "You are a technical writer who creates clear, concise summaries of code reviews."

  /** Shortest acceptable review and summary, in bytes. */
  const MinReviewBytes: nat := 50
  const MinSummaryBytes: nat := 20

  function Endpoint(a: Adapter): string
  {
    a.baseURL + "/api/generate"
  }

  function ReviewPrompt(changes: seq<string>): string
  {
    ReviewPreamble + Join(changes, "\n\n")
  }

  function SummaryPrompt(review: string): string
  {
    SummaryPreamble + review
  }

  /** The review request: the configured model, the review prompt, no streaming. */
  function ReviewRequest(a: Adapter, changes: seq<string>): OllamaRequest
  {
    OllamaRequest(a.model, ReviewPrompt(changes), ReviewSystem, false)
  }

  /** The summary request: built from the review text alone. */
  function SummaryRequest(a: Adapter, review: string): OllamaRequest
  {
    OllamaRequest(a.model, SummaryPrompt(review), SummarySystem, false)
  }

  /** The reply is a 200 whose body decodes to a non-empty `response`. */
  predicate Answered(reply: Result<HttpReply>)
  {
    reply.Ok? && reply.value.statusCode == 200 && reply.value.decoded.Ok?
    && reply.value.decoded.value.response != ""
  }

  function AnswerText(reply: Result<HttpReply>): string
    requires Answered(reply)
  {
    reply.value.decoded.value.response
  }

  /** `sendRequest`: POSTs the request as JSON to the generate endpoint, then rejects a
      transport error, a non-200 status, an undecodable body and an empty response, in
      that order. A success always carries non-empty text. */
  method SendRequest(a: Adapter, net: Network, req: OllamaRequest)
    returns (r: Result<OllamaResponse>, calls: seq<Call>)
    ensures calls == [HttpPost(Endpoint(a), "application/json", req)]
    ensures var reply := net.post(Endpoint(a), "application/json", req);
      && (r.Ok? <==> Answered(reply))
      && (r.Ok? ==> r.value == reply.value.decoded.value && r.value.response != "")
      && (reply.Err? ==> r == Err("failed to send request: " + reply.msg))
      && (reply.Ok? && reply.value.statusCode != 200 ==>
            r == Err("unexpected status code: " + IntToString(reply.value.statusCode) + ", body: " + reply.value.body))
      && (reply.Ok? && reply.value.statusCode == 200 && reply.value.decoded.Err? ==>
            r == Err("failed to decode response: " + reply.value.decoded.msg))
      && (reply.Ok? && reply.value.statusCode == 200 && reply.value.decoded.Ok? && reply.value.decoded.value.response == "" ==>
            r == Err("empty response from Ollama"))
  {
    var url := Endpoint(a);
    calls := [HttpPost(url, "application/json", req)];
    var resp := net.post(url, "application/json", req);
    if resp.Err? {
      return Err("failed to send request: " + resp.msg), calls;
    }
    if resp.value.statusCode != 200 {
      return Err("unexpected status code: " + IntToString(resp.value.statusCode) + ", body: " + resp.value.body), calls;
    }
    var decoded := resp.value.decoded;
    if decoded.Err? {
      return Err("failed to decode response: " + decoded.msg), calls;
    }
    if decoded.value.response == "" {
      return Err("empty response from Ollama"), calls;
    }
    r := Ok(decoded.value);
  }

  /** `ReviewCode`: one generate request; the answer is returned unchanged when it is at
      least 50 bytes long, and rejected as too short otherwise. */
  method ReviewCode(a: Adapter, net: Network, changes: seq<string>)
    returns (r: Result<string>, calls: seq<Call>)
    ensures calls == [HttpPost(Endpoint(a), "application/json", ReviewRequest(a, changes))]
    ensures var reply := net.post(Endpoint(a), "application/json", ReviewRequest(a, changes));
      && (r.Ok? <==> Answered(reply) && ByteLen(AnswerText(reply)) >= MinReviewBytes)
      && (r.Ok? ==> r.value == AnswerText(reply))
      && (Answered(reply) && ByteLen(AnswerText(reply)) < MinReviewBytes ==>
            r == Err("invalid response from Ollama: response too short"))
      && (!Answered(reply) ==> r.Err? && "failed to get Ollama response: " <= r.msg)
  {
    var resp;
    resp, calls := SendRequest(a, net, ReviewRequest(a, changes));
    if resp.Err? {
      return Err("failed to get Ollama response: " + resp.msg), calls;
    }
    var content := resp.value.response;
    if ByteLen(content) < MinReviewBytes {
      return Err("invalid response from Ollama: response too short"), calls;
    }
    r := Ok(content);
  }

  /** `GenerateReviewSummary`: one generate request built from the review alone; the
      answer is returned unchanged when it is at least 20 bytes long. */
  method GenerateReviewSummary(a: Adapter, net: Network, review: string)
    returns (r: Result<string>, calls: seq<Call>)
    ensures calls == [HttpPost(Endpoint(a), "application/json", SummaryRequest(a, review))]
    ensures var reply := net.post(Endpoint(a), "application/json", SummaryRequest(a, review));
      && (r.Ok? <==> Answered(reply) && ByteLen(AnswerText(reply)) >= MinSummaryBytes)
      && (r.Ok? ==> r.value == AnswerText(reply))
      && (Answered(reply) && ByteLen(AnswerText(reply)) < MinSummaryBytes ==>
            r == Err("invalid response from Ollama: summary too short"))
      && (!Answered(reply) ==> r.Err? && "failed to get Ollama response: " <= r.msg)
  {
    var resp;
    resp, calls := SendRequest(a, net, SummaryRequest(a, review));
    if resp.Err? {
      return Err("failed to get Ollama response: " + resp.msg), calls;
    }
    var content := resp.value.response;
    if ByteLen(content) < MinSummaryBytes {
      return Err("invalid response from Ollama: summary too short"), calls;
    }
    r := Ok(content);
  }

  /** The byte gate in characters: a text of at least `n` characters always passes a gate
      of `n` bytes, one of fewer than `n / 4` characters never does, and for ASCII text
      the gate counts characters exactly. */
  lemma GateInCharacters(text: string, n: nat)
    ensures |text| >= n ==> ByteLen(text) >= n
    ensures 4 * |text| < n ==> ByteLen(text) < n
    ensures IsAscii(text) ==> (ByteLen(text) >= n <==> |text| >= n)
  {
    ByteLenBounds(text);
  }

  /** Every change string appears, whole and in order, after the fixed preamble of the
      review prompt, and consecutive changes are separated by a blank line. */
  lemma ReviewPromptLayout(changes: seq<string>, i: nat)
    requires i < |changes|
    ensures PartAt(ReviewPrompt(changes), ReviewPreamble, changes, "\n\n", i)
  {
    PrefixedJoinAt(ReviewPreamble, changes, "\n\n", i);
  }
}

=== FILE: openai.dfy ===
/** The hosted-API variant of the AI backend (ai/openai_adapter.go; openai/client.go is the
    same code under another name and is covered by this module too). */
module OpenAI {
  import opened Errors
  import opened Text
  import opened Wire

  /** `openai.GPT4`. */
  const Model: string := "gpt-4"

  const ReviewInstruction: string :=
    "Please review the following code changes and provide a detailed review. "
    + "Focus on code quality, potential bugs, and best practices. "
    + "Format the review in markdown.\n\nChanges:\n"

  const ReviewSystem: string :=
    "You are an experienced code reviewer. Provide detailed, constructive feedback on code changes."

  const SummaryInstruction: string :=
    "Please provide a brief summary (2-3 sentences) of the following code review:\n\n"

  const SummarySystem: string :=
    "You are a technical writer. Create concise summaries of code reviews."

  function ReviewPrompt(changes: seq<string>): string
  {
    ReviewInstruction + Join(changes, "\n\n")
  }

  function SummaryPrompt(review: string): string
  {
    SummaryInstruction + review
  }

  /** A chat request: a system message, then the prompt as the user message, to GPT-4. */
  function Chat(system: string, prompt: string): ChatRequest
  {
    ChatRequest(Model, [ChatMessage("system", system), ChatMessage("user", prompt)])
  }

  function ReviewChat(changes: seq<string>): ChatRequest
  {
    Chat(ReviewSystem, ReviewPrompt(changes))
  }

  function SummaryChat(review: string): ChatRequest
  {
    Chat(SummarySystem, SummaryPrompt(review))
  }

  /** One chat completion: an API error becomes an error (with an empty string as the Go
      value); otherwise the first choice's content is returned as it is, with no length
      check. With no choices at all, `resp.Choices[0]` panics. */
  function Complete(net: Network, req: ChatRequest): (r: (Reply<string>, seq<Call>))
    ensures r.1 == [ChatCompletion(req)]
    ensures r.0.Succeeded() <==> net.chat(req).Ok? && |net.chat(req).value.choices| > 0
    ensures r.0.Succeeded() ==> r.0.result.value == net.chat(req).value.choices[0]
    ensures net.chat(req).Err? ==> r.0 == Returned(Err("failed to get OpenAI response: " + net.chat(req).msg))
    ensures r.0.Panicked? <==> net.chat(req).Ok? && net.chat(req).value.choices == []
  {
    var calls := [ChatCompletion(req)];
    match net.chat(req)
    case Err(e) => (Returned(Err("failed to get OpenAI response: " + e)), calls)
    case Ok(resp) =>
      if |resp.choices| == 0 then (Panicked(IndexOutOfRange), calls)
      else (Returned(Ok(resp.choices[0])), calls)
  }

  /** `ReviewCode`: one chat completion over the review prompt, whose first choice is
      the review. */
  function ReviewCode(net: Network, changes: seq<string>): (r: (Reply<string>, seq<Call>))
    ensures r.1 == [ChatCompletion(ReviewChat(changes))]
    ensures var reply := net.chat(ReviewChat(changes));
      && (r.0.Succeeded() <==> reply.Ok? && |reply.value.choices| > 0)
      && (r.0.Succeeded() ==> r.0.result.value == reply.value.choices[0])
      && (reply.Err? ==> r.0 == Returned(Err("failed to get OpenAI response: " + reply.msg)))
      && (r.0.Panicked? <==> reply == Ok(ChatResponse([])))
  {
    Complete(net, ReviewChat(changes))
  }

  /** `GenerateReviewSummary`: one chat completion over the summary prompt, whose first
      choice is the summary. */
  function GenerateReviewSummary(net: Network, review: string): (r: (Reply<string>, seq<Call>))
    ensures r.1 == [ChatCompletion(SummaryChat(review))]
    ensures var reply := net.chat(SummaryChat(review));
      && (r.0.Succeeded() <==> reply.Ok? && |reply.value.choices| > 0)
      && (r.0.Succeeded() ==> r.0.result.value == reply.value.choices[0])
      && (reply.Err? ==> r.0 == Returned(Err("failed to get OpenAI response: " + reply.msg)))
      && (r.0.Panicked? <==> reply == Ok(ChatResponse([])))
  {
    Complete(net, SummaryChat(review))
  }

  /** The review prompt is the fixed instruction (ending in "Changes:\n") followed by every
      change, whole and in order, separated by blank lines; it is the user message. */
  lemma ReviewPromptLayout(changes: seq<string>, i: nat)
    requires i < |changes|
    ensures ReviewChat(changes).messages[1] == ChatMessage("user", ReviewPrompt(changes))
    ensures PartAt(ReviewPrompt(changes), ReviewInstruction, changes, "\n\n", i)
  {
    PrefixedJoinAt(ReviewInstruction, changes, "\n\n", i);
  }

  /** The summary request carries the review verbatim after the fixed instruction, so
      the review can be read back from it. */
  lemma SummaryPromptCarriesReview(review: string)
    ensures SummaryChat(review).messages[1].content[|SummaryInstruction|..] == review
    ensures SummaryChat(review).messages[0] == ChatMessage("system", SummarySystem)
  {
  }
}

=== FILE: pipeline.dfy ===
/** The review pipeline (`processPR`, main.go): five backend operations in a fixed order,
    stopping at the first that does not succeed. Each step records what it was given,
    what it got back and the requests it made. */
module Pipeline {
  import opened Errors
  import opened Config
  import opened Wire
  import Vcs
  import Ai
  import Slack
  import GitHub
  import OpenAI

  datatype Stage = FetchChanges | Review | Summarize | PostReview | Notify

  /** One step of a run. */
  datatype Step =
    | Fetched(repo: string, number: int, fetched: Reply<seq<string>>, calls: seq<Call>)
    | Reviewed(changes: seq<string>, review: Reply<string>, calls: seq<Call>)
    | Summarized(reviewText: string, summary: Reply<string>, calls: seq<Call>)
    | Posted(postRepo: string, postNumber: int, postedReview: string, posted: Reply<()>, calls: seq<Call>)
    | Notified(title: string, url: string, summaryText: string, sent: Result<()>, calls: seq<Call>)
  {
    function StageOf(): Stage
    {
      match this
      case Fetched(_, _, _, _) => FetchChanges
      case Reviewed(_, _, _) => Review
      case Summarized(_, _, _) => Summarize
      case Posted(_, _, _, _, _) => PostReview
      case Notified(_, _, _, _, _) => Notify
    }

    /** The step's operation returned without an error. */
    predicate Ok()
    {
      match this
      case Fetched(_, _, r, _) => r.Succeeded()
      case Reviewed(_, r, _) => r.Succeeded()
      case Summarized(_, r, _) => r.Succeeded()
      case Posted(_, _, _, r, _) => r.Succeeded()
      case Notified(_, _, _, r, _) => r.Ok?
    }

    /** The step's operation panicked (a nil client, or an empty choice list). */
    predicate Crashed()
    {
      match this
      case Fetched(_, _, r, _) => r.Panicked?
      case Reviewed(_, r, _) => r.Panicked?
      case Summarized(_, r, _) => r.Panicked?
      case Posted(_, _, _, r, _) => r.Panicked?
      case Notified(_, _, _, _, _) => false
    }
  }

  /** How a run ends: every step succeeded, or the named stage returned an error, or it
      panicked (which, in a goroutine, takes the whole process down). */
  datatype Outcome = Completed | Failed(stage: Stage, msg: string) | Crashed(stage: Stage, reason: string)

  function Halt<T>(stage: Stage, r: Reply<T>): Outcome
    requires !r.Succeeded()
  {
    if r.Panicked? then Crashed(stage, r.reason) else Failed(stage, r.result.msg)
  }

  /** Every request of a run, in the order the steps made them. */
  function Trace(steps: seq<Step>): seq<Call>
  {
    if steps == [] then [] else Trace(steps[..|steps| - 1]) + steps[|steps| - 1].calls
  }

  /** The steps of a run for PR `number` of `repo` titled `title` at `url` come in
      pipeline order, each after every earlier one succeeded, and each is fed what the
      earlier steps produced: the review is asked for with the fetched changes, the summary
      with the review text alone, the review (not the summary) is posted to the same PR,
      and the channel is sent the title, the URL and the summary. */
  predicate Chained(number: int, repo: string, title: string, url: string, steps: seq<Step>)
  {
    && 1 <= |steps| <= 5
    && (forall i :: 0 <= i < |steps| - 1 ==> steps[i].Ok())
    && steps[0].Fetched? && steps[0].repo == repo && steps[0].number == number
    && (|steps| >= 2 ==> steps[1].Reviewed? && steps[1].changes == steps[0].fetched.result.value)
    && (|steps| >= 3 ==> steps[2].Summarized? && steps[2].reviewText == steps[1].review.result.value)
    && (|steps| >= 4 ==>
          steps[3].Posted? && steps[3].postRepo == repo && steps[3].postNumber == number
          && steps[3].postedReview == steps[1].review.result.value)
    && (|steps| == 5 ==>
          steps[4].Notified? && steps[4].title == title && steps[4].url == url
          && steps[4].summaryText == steps[2].summary.result.value)
  }

  /** Requests that only read pull request `number` of `repo`. */
  predicate ReadsPR(calls: seq<Call>, repo: string, number: int)
  {
    forall c :: c in calls ==> IsVcsRead(c) && Vcs.OnPR(c, repo, number)
  }

  /** Requests that read pull request `number` of `repo` or publish `review` on it. */
  predicate PostsOnPR(calls: seq<Call>, repo: string, number: int, review: string)
  {
    forall c :: c in calls ==>
      (IsVcsRead(c) || (IsVcsPost(c) && PostedBody(c) == review)) && Vcs.OnPR(c, repo, number)
  }

  /** The requests one step made, given what it was fed: fetching only reads, and posting
      reads and publishes nothing but the review, both about the step's own PR; reviewing
      and summarising each send one request built from their input alone; notifying sends
      the one Slack message. */
  predicate Fits(ai: Ai.Provider, env: Env, net: Network, s: Step)
  {
    match s
    case Fetched(repo, number, _, calls) => |calls| <= 1 && ReadsPR(calls, repo, number)
    case Reviewed(changes, _, calls) => calls == [Ai.ReviewCall(ai, changes)]
    case Summarized(review, _, calls) => calls == [Ai.SummaryCall(ai, review)]
    case Posted(repo, number, review, _, calls) => PostsOnPR(calls, repo, number, review)
    case Notified(title, url, summary, sent, calls) =>
      calls == [PostMessage(Getenv(env, "SLACK_CHANNEL_ID"), Slack.Message(title, url, summary))]
      && (sent.Ok? <==> net.postMessage(calls[0].channel, calls[0].text).Ok?)
  }

  /** A run of `processPR`. */
  ghost predicate Sequenced(ai: Ai.Provider, env: Env, net: Network,
                            number: int, repo: string, title: string, url: string, steps: seq<Step>)
  {
    Chained(number, repo, title, url, steps) && forall i :: 0 <= i < |steps| ==> Fits(ai, env, net, steps[i])
  }

  /** The backends `main` builds before serving: the VCS provider, the AI provider and
      the Slack client. A factory error ends the process (the VCS factory is asked
      first), so there are none. */
  datatype Backends = Backends(vcs: Vcs.Provider, ai: Ai.Provider, slack: Slack.Client)

  /** `main` as written: the backends exist exactly when both factories succeed, and the
      VCS provider may hold a nil client when its token is missing. */
  function Boot(env: Env): (r: Result<Backends>)
    ensures r.Ok? <==> Vcs.NewProvider(env).Ok? && Ai.NewProvider(env).Ok?
    ensures r.Ok? ==> r.value == Backends(Vcs.NewProvider(env).value, Ai.NewProvider(env).value, Slack.NewClient(env))
    ensures Vcs.NewProvider(env).Err? ==> r == Err(Vcs.NewProvider(env).msg)
    ensures Vcs.NewProvider(env).Ok? && Ai.NewProvider(env).Err? ==> r == Err(Ai.NewProvider(env).msg)
  {
    match Vcs.NewProvider(env)
    case Err(e) => Err(e)
    case Ok(vcs) =>
      match Ai.NewProvider(env)
      case Err(e) => Err(e)
      case Ok(ai) => Ok(Backends(vcs, ai, Slack.NewClient(env)))
  }

  /** `main` with the corrected VCS factory: the same backends whenever their VCS client
      is not nil, and a startup error instead of a nil client. */
  function BootChecked(env: Env): (r: Result<Backends>)
    ensures r.Ok? <==> Boot(env).Ok? && !Vcs.HasNilClient(Boot(env).value.vcs)
    ensures r.Ok? ==> r == Boot(env) && !Vcs.HasNilClient(r.value.vcs)
    ensures Vcs.NewProvider(env).Err? ==> r == Boot(env)
    ensures Vcs.NewProvider(env).Ok? && Vcs.HasNilClient(Vcs.NewProvider(env).value) ==>
      r == Err(Vcs.NewProviderChecked(env).msg)
  {
    match Vcs.NewProviderChecked(env)
    case Err(e) => Err(e)
    case Ok(vcs) =>
      match Ai.NewProvider(env)
      case Err(e) => Err(e)
      case Ok(ai) => Ok(Backends(vcs, ai, Slack.NewClient(env)))
  }

  /** `main` as written starts on an empty environment, with a nil GitHub client that the
      first accepted delivery will crash on; with the corrected factory it does not start. */
  lemma StartsWithNilClient()
    ensures var env := Env(map[]);
      && Boot(env).Ok? && Boot(env).value.vcs.GitHubProvider? && Vcs.HasNilClient(Boot(env).value.vcs)
      && BootChecked(env).Err?
  {
    var env := Env(map[]);
    assert Getenv(env, "VCS_PROVIDER") == "" && Getenv(env, "GITHUB_TOKEN") == "" && Getenv(env, "AI_PROVIDER") == "";
  }

  /** `processPR`: runs GetChanges, ReviewCode, GenerateReviewSummary, CreateReview and
      the Slack notification in this order on the configured backends, and returns at the
      first error. A panic can only come from a nil VCS client (fetching or posting) or from
      a chat reply with no choices (reviewing or summarising). */
  method ProcessPR(b: Backends, env: Env, net: Network, number: int, repo: string, title: string, url: string)
    returns (outcome: Outcome, steps: seq<Step>, calls: seq<Call>)
    ensures calls == Trace(steps)
    ensures Chained(number, repo, title, url, steps)
    ensures forall i :: 0 <= i < |steps| ==> Fits(b.ai, env, net, steps[i])
    ensures outcome.Completed? <==> |steps| == 5 && steps[4].Ok()
    ensures !outcome.Completed? ==> !steps[|steps| - 1].Ok() && outcome.stage == steps[|steps| - 1].StageOf()
    ensures outcome.Crashed? <==> steps[|steps| - 1].Crashed()
    ensures outcome.Crashed? ==>
      if outcome.stage in {FetchChanges, PostReview} then Vcs.HasNilClient(b.vcs) else b.ai.OpenAIProvider?
    ensures Vcs.HasNilClient(b.vcs) && (b.vcs.GitLabProvider? || GitHub.SplitRepo(repo).Ok?) ==>
      outcome == Crashed(FetchChanges, NilDereference) && |steps| == 1
    ensures outcome.Crashed? && outcome.stage == Review ==>
      |steps| == 2 && net.chat(OpenAI.ReviewChat(steps[1].changes)) == Ok(ChatResponse([]))
    ensures outcome.Crashed? && outcome.stage == Summarize ==>
      |steps| == 3 && net.chat(OpenAI.SummaryChat(steps[2].reviewText)) == Ok(ChatResponse([]))
  {
    var s0 := FetchStep(b, env, net, repo, number);
    if !s0.Ok() {
      steps := [s0];
      return Halt(FetchChanges, s0.fetched), steps, Trace(steps);
    }
    var s1 := ReviewStep(b, env, net, s0.fetched.result.value);
    if !s1.Ok() {
      steps := [s0, s1];
      return Halt(Review, s1.review), steps, Trace(steps);
    }
    var s2 := SummaryStep(b, env, net, s1.review.result.value);
    if !s2.Ok() {
      steps := [s0, s1, s2];
      return Halt(Summarize, s2.summary), steps, Trace(steps);
    }
    var s3 := PostStep(b, env, net, repo, number, s1.review.result.value);
    if !s3.Ok() {
      steps := [s0, s1, s2, s3];
      return Halt(PostReview, s3.posted), steps, Trace(steps);
    }
    var s4 := NotifyStep(b, env, net, title, url, s2.summary.result.value);
    steps := [s0, s1, s2, s3, s4];
    outcome := if s4.Ok() then Completed else Failed(Notify, s4.sent.msg);
    calls := Trace(steps);
  }

  /** `vcsProvider.GetChanges`, recorded as the first step. */
  method FetchStep(b: Backends, env: Env, net: Network, repo: string, number: int) returns (s: Step)
    ensures s.Fetched? && s.repo == repo && s.number == number && Fits(b.ai, env, net, s)
    ensures s.Crashed() ==> Vcs.HasNilClient(b.vcs)
    ensures Vcs.HasNilClient(b.vcs) && (b.vcs.GitLabProvider? || GitHub.SplitRepo(repo).Ok?) ==>
      s.fetched == Panicked(NilDereference)
  {
    var fetched, calls := Vcs.GetChanges(b.vcs, net, repo, number);
    s := Fetched(repo, number, fetched, calls);
  }

  /** `aiProvider.ReviewCode`, recorded. */
  method ReviewStep(b: Backends, env: Env, net: Network, changes: seq<string>) returns (s: Step)
    ensures s.Reviewed? && s.changes == changes && Fits(b.ai, env, net, s)
    ensures s.Crashed() <==> b.ai.OpenAIProvider? && net.chat(OpenAI.ReviewChat(changes)) == Ok(ChatResponse([]))
  {
    var review, calls := Ai.ReviewCode(b.ai, net, changes);
    s := Reviewed(changes, review, calls);
  }

  /** `aiProvider.GenerateReviewSummary`, recorded. */
  method SummaryStep(b: Backends, env: Env, net: Network, reviewText: string) returns (s: Step)
    ensures s.Summarized? && s.reviewText == reviewText && Fits(b.ai, env, net, s)
    ensures s.Crashed() <==> b.ai.OpenAIProvider? && net.chat(OpenAI.SummaryChat(reviewText)) == Ok(ChatResponse([]))
  {
    var summary, calls := Ai.GenerateReviewSummary(b.ai, net, reviewText);
    s := Summarized(reviewText, summary, calls);
  }

  /** `vcsProvider.CreateReview`, recorded. */
  method PostStep(b: Backends, env: Env, net: Network, repo: string, number: int, reviewText: string) returns (s: Step)
    ensures s.Posted? && s.postRepo == repo && s.postNumber == number && s.postedReview == reviewText
    ensures Fits(b.ai, env, net, s)
    ensures s.Crashed() ==> Vcs.HasNilClient(b.vcs)
  {
    var posted, calls := Vcs.CreateReview(b.vcs, env, net, repo, number, reviewText);
    s := Posted(repo, number, reviewText, posted, calls);
  }

  /** `slackClient.SendPRReviewNotification`, recorded. */
  method NotifyStep(b: Backends, env: Env, net: Network, title: string, url: string, summaryText: string) returns (s: Step)
    ensures s.Notified? && s.title == title && s.url == url && s.summaryText == summaryText
    ensures Fits(b.ai, env, net, s)
  {
    var (sent, calls) := Slack.SendPRReviewNotification(b.slack, env, net, title, url, summaryText);
    s := Notified(title, url, summaryText, sent, calls);
  }

  /** `c` is one of the requests the steps made. */
  predicate Requested(steps: seq<Step>, c: Call)
  {
    exists i :: 0 <= i < |steps| && c in steps[i].calls
  }

  /** The trace holds exactly the requests the steps made. */
  lemma {:induction false} InTrace(steps: seq<Step>, c: Call)
    ensures c in Trace(steps) <==> Requested(steps, c)
  {
    if steps != [] {
      var init := steps[..|steps| - 1];
      InTrace(init, c);
      assert forall i :: 0 <= i < |init| ==> init[i] == steps[i];
    }
  }

  /** Which backend each step talks to, and how. */
  predicate Talks(s: Step)
  {
    match s
    case Fetched(_, _, _, calls) => forall c :: c in calls ==> IsVcsRead(c)
    case Reviewed(_, _, calls) => forall c :: c in calls ==> IsAiCall(c)
    case Summarized(_, _, calls) => forall c :: c in calls ==> IsAiCall(c)
    case Posted(_, _, _, _, calls) => forall c :: c in calls ==> IsVcsRead(c) || IsVcsPost(c)
    case Notified(_, _, _, _, calls) => forall c :: c in calls ==> c.PostMessage?
  }

  lemma FitsTalks(ai: Ai.Provider, env: Env, net: Network, s: Step)
    requires Fits(ai, env, net, s)
    ensures Talks(s)
  {
  }

  /** The step of a run that made a given request of its trace. */
  lemma MadeBy(ai: Ai.Provider, env: Env, net: Network, number: int, repo: string, title: string, url: string,
               steps: seq<Step>, c: Call) returns (i: nat)
    requires Sequenced(ai, env, net, number, repo, title, url, steps)
    requires Requested(steps, c)
    ensures i < |steps| && c in steps[i].calls
    ensures Fits(ai, env, net, steps[i]) && Talks(steps[i])
  {
    i :| 0 <= i < |steps| && c in steps[i].calls;
    FitsTalks(ai, env, net, steps[i]);
  }

  /** The PR is published to only after the review and the summary were both produced,
      what is published is the review, never the summary, and it goes to the PR the
      webhook named. */
  lemma PostsCarryTheReview(ai: Ai.Provider, env: Env, net: Network, number: int, repo: string, title: string, url: string,
                            steps: seq<Step>, c: Call)
    requires Sequenced(ai, env, net, number, repo, title, url, steps)
    requires Requested(steps, c) && IsVcsPost(c)
    ensures |steps| >= 4 && steps[1].Ok() && steps[2].Ok()
    ensures PostedBody(c) == steps[1].review.result.value
    ensures Vcs.OnPR(c, repo, number)
  {
    var i := MadeBy(ai, env, net, number, repo, title, url, steps, c);
    assert steps[i].Posted?;
  }

  /** Every request a run makes of the VCS host, read or post, is about the PR the
      webhook named. */
  lemma VcsStaysOnThePR(ai: Ai.Provider, env: Env, net: Network, number: int, repo: string, title: string, url: string,
                        steps: seq<Step>, c: Call)
    requires Sequenced(ai, env, net, number, repo, title, url, steps)
    requires Requested(steps, c) && (IsVcsRead(c) || IsVcsPost(c))
    ensures Vcs.OnPR(c, repo, number)
  {
    var i := MadeBy(ai, env, net, number, repo, title, url, steps, c);
    assert steps[i].Fetched? || steps[i].Posted?;
  }

  /** The channel hears of a PR only after its review was posted, and what it gets is the
      title, the URL and the summary of this run. */
  lemma NotificationCarriesTheSummary(ai: Ai.Provider, env: Env, net: Network, number: int, repo: string, title: string, url: string,
                                      steps: seq<Step>, c: Call)
    requires Sequenced(ai, env, net, number, repo, title, url, steps)
    requires Requested(steps, c) && c.PostMessage?
    ensures |steps| == 5 && steps[3].Ok()
    ensures c == PostMessage(Getenv(env, "SLACK_CHANNEL_ID"), Slack.Message(title, url, steps[2].summary.result.value))
  {
    var i := MadeBy(ai, env, net, number, repo, title, url, steps, c);
    assert steps[i].Notified?;
  }

  /** The AI backend is asked at most twice: for a review of the fetched changes, and
      then for a summary of that review. */
  lemma AiSeesChangesThenReview(ai: Ai.Provider, env: Env, net: Network, number: int, repo: string, title: string, url: string,
                                steps: seq<Step>, c: Call)
    requires Sequenced(ai, env, net, number, repo, title, url, steps)
    requires Requested(steps, c) && IsAiCall(c)
    ensures |steps| >= 2 && steps[0].Ok()
    ensures c == Ai.ReviewCall(ai, steps[0].fetched.result.value)
         || (|steps| >= 3 && steps[1].Ok() && c == Ai.SummaryCall(ai, steps[1].review.result.value))
  {
    var i := MadeBy(ai, env, net, number, repo, title, url, steps, c);
    assert steps[i].Reviewed? || steps[i].Summarized?;
  }
}

=== FILE: server.dfy ===
/** The webhook endpoint itself (main.go): a request whose body is a reader that can be
    drained and replaced, a response that records status and text, and the handler that
    verifies, decodes and dispatches. */
module Server {
  import opened Errors
  import opened Config
  import opened Encoding
  import opened Types
  import opened Gate

  /** An incoming POST: its headers, and the reader currently installed as its body. */
  class Request {
    const header: Headers
    /** What the installed reader will deliver. */
    var body: seq<byte>
    /** The installed reader fails instead of delivering. */
    var broken: bool
    /** Every body a read has handed out, in order. */
    ghost var delivered: seq<seq<byte>>

    constructor(header: Headers, body: seq<byte>, broken: bool)
      ensures this.header == header && this.body == body && this.broken == broken && delivered == []
    {
      this.header := header;
      this.body := body;
      this.broken := broken;
      delivered := [];
    }

    /** `io.ReadAll(r.Body)`: everything the reader holds, or its error; the reader is
        drained either way. */
    method ReadAll() returns (r: Result<seq<byte>>)
      modifies this
      ensures old(broken) ==> r.Err? && delivered == old(delivered)
      ensures !old(broken) ==> r == Ok(old(body)) && delivered == old(delivered) + [old(body)]
      ensures body == [] && broken == old(broken)
    {
      if broken {
        r := Err("read failed");
      } else {
        r := Ok(body);
        delivered := delivered + [body];
      }
      body := [];
    }

    /** `r.Body = io.NopCloser(bytes.NewBuffer(b))`: a fresh in-memory reader over `b`,
        which cannot fail. */
    method Restore(b: seq<byte>)
      modifies this
      ensures body == b && !broken && delivered == old(delivered)
    {
      body := b;
      broken := false;
    }
  }

  /** What the handler writes back: the status of the first `WriteHeader` (0 until one
      is written) and the text written. */
  class Response {
    var status: int
    var text: string

    constructor()
      ensures status == 0 && text == ""
    {
      status := 0;
      text := "";
    }

    /** `WriteHeader`: only the first status written counts. */
    method WriteHeader(code: int)
      modifies this
      ensures status == (if old(status) == 0 then code else old(status)) && text == old(text)
    {
      if status == 0 {
        status := code;
      }
    }

    /** `http.Error`: the status, then the message on a line of its own. */
    method Error(msg: string, code: int)
      modifies this
      ensures status == (if old(status) == 0 then code else old(status)) && text == old(text) + msg + "\n"
    {
      WriteHeader(code);
      text := text + msg + "\n";
    }
  }

  /** The process serving `/webhook`: its environment, the MAC and the JSON decoders it
      relies on, and the reviews it has started (`go processPR(...)`), in order. */
  class Server {
    const env: Env
    const mac: Mac
    const decodeGitHub: seq<byte> -> Result<PRWebhook>
    const decodeGitLab: seq<byte> -> Result<GitLabWebhook>
    var dispatched: seq<Dispatch>

    constructor(env: Env, mac: Mac, decodeGitHub: seq<byte> -> Result<PRWebhook>,
                decodeGitLab: seq<byte> -> Result<GitLabWebhook>)
      ensures this.env == env && this.mac == mac && this.decodeGitHub == decodeGitHub
      ensures this.decodeGitLab == decodeGitLab && dispatched == []
    {
      this.env := env;
      this.mac := mac;
      this.decodeGitHub := decodeGitHub;
      this.decodeGitLab := decodeGitLab;
      dispatched := [];
    }

    /** `verifyGitHubWebhook`: reads the body only when a secret and a signature are
        present, and then puts an identical reader back. The byte comparison of the
        signature decides the same as the string comparison of `GitHubSignatureOk`. */
    method VerifyGitHub(req: Request) returns (ok: bool)
      modifies req
      ensures ok == GitHubSignatureOk(env, req.header, old(req.body), !old(req.broken), mac)
      ensures req.broken == old(req.broken) && (!req.broken ==> req.body == old(req.body))
      ensures forall i :: |old(req.delivered)| <= i < |req.delivered| ==> req.delivered[i] == old(req.body)
      ensures old(req.delivered) <= req.delivered
    {
      var secret := Getenv(env, "GITHUB_WEBHOOK_SECRET");
      if secret == "" {
        return true;
      }
      var signature := Header(req.header, "X-Hub-Signature-256");
      if signature == "" {
        return false;
      }
      var body := req.ReadAll();
      if body.Err? {
        return false;
      }
      req.Restore(body.value);
      var expected := ExpectedSignature(mac, secret, body.value);
      ByteComparisonIsStringComparison(signature, mac, secret, body.value);
      ok := Utf8(signature) == Utf8(expected);
    }

    /** `handleWebhook`: verify for the configured host (401 on failure), read the body
        (400 on failure) and put it back, then decode and filter it for that host (400 on
        a decoding error, 200 otherwise). A review is started exactly when the delivery is
        accepted, and every read of the body hands out the bytes that arrived, so the
        decoder sees exactly what was verified. */
    method HandleWebhook(req: Request, w: Response)
      requires w.status == 0
      modifies this, req, w
      ensures var v := Route(env, req.header, old(req.body), !old(req.broken), mac, decodeGitHub, decodeGitLab);
        && w.status == Status(v)
        && w.text == old(w.text) + ErrorText(v)
        && dispatched == old(dispatched) + (if v.Accepted? then [v.job] else [])
      ensures forall i :: |old(req.delivered)| <= i < |req.delivered| ==> req.delivered[i] == old(req.body)
      ensures old(req.delivered) <= req.delivered
    {
      var providerType := ProviderType(env);
      var verified;
      if providerType == "gitlab" {
        verified := GitLabTokenOk(env, req.header);
      } else {
        verified := VerifyGitHub(req);
      }
      if !verified {
        w.Error("Invalid signature", 401);
        return;
      }
      var body := req.ReadAll();
      if body.Err? {
        w.Error("Invalid payload", 400);
        return;
      }
      req.Restore(body.value);
      if providerType == "gitlab" {
        HandleGitLab(body.value, w);
      } else {
        HandleGitHub(body.value, w);
      }
    }

    /** `handleGitHubWebhook`. */
    method HandleGitHub(body: seq<byte>, w: Response)
      requires w.status == 0
      modifies this, w
      ensures var v := GitHubVerdict(decodeGitHub(body));
        && w.status == Status(v) && w.text == old(w.text) + ErrorText(v)
        && dispatched == old(dispatched) + (if v.Accepted? then [v.job] else [])
    {
      var webhook := decodeGitHub(body);
      if webhook.Err? {
        w.Error("Invalid payload", 400);
        return;
      }
      var hook := webhook.value;
      if hook.action != "opened" && hook.action != "reopened" {
        w.WriteHeader(200);
        return;
      }
      dispatched := dispatched + [Dispatch(hook.pullRequest.number, hook.repository.fullName,
                                           hook.pullRequest.title, hook.pullRequest.url)];
      w.WriteHeader(200);
    }

    /** `handleGitLabWebhook`. */
    method HandleGitLab(body: seq<byte>, w: Response)
      requires w.status == 0
      modifies this, w
      ensures var v := GitLabVerdict(decodeGitLab(body));
        && w.status == Status(v) && w.text == old(w.text) + ErrorText(v)
        && dispatched == old(dispatched) + (if v.Accepted? then [v.job] else [])
    {
      var webhook := decodeGitLab(body);
      if webhook.Err? {
        w.Error("Invalid payload", 400);
        return;
      }
      var hook := webhook.value;
      if hook.objectKind != "merge_request" {
        w.WriteHeader(200);
        return;
      }
      var attrs := hook.objectAttributes;
      if attrs.action != "open" && attrs.action != "reopen" {
        w.WriteHeader(200);
        return;
      }
      dispatched := dispatched + [Dispatch(attrs.iid, hook.project.pathWithNamespace, attrs.title, attrs.url)];
      w.WriteHeader(200);
    }
  }
}

=== FILE: slack.dfy ===
/** The notification sink (slack/client.go). */
module Slack {
  import opened Errors
  import opened Text
  import opened Config
  import opened Wire

  /** `*slack.Client` (never nil: `slack.New` always returns a client). */
  datatype Client = Client(token: string)

  function NewClient(env: Env): (c: Client)
    ensures c.token == Getenv(env, "SLACK_BOT_TOKEN")
  {
    Client(Getenv(env, "SLACK_BOT_TOKEN"))
  }

  /** `fmt.Sprintf("*New PR Review*\nTitle: %s\nURL: %s\n\nReview Summary:\n%s", ...)`. */
  function Message(title: string, url: string, summary: string): (m: string)
    ensures "*New PR Review*\nTitle: " <= m
    ensures |m| == |title| + |url| + |summary| + 47
    ensures m[|m| - |summary|..] == summary
  {
    "*New PR Review*\nTitle: " + title + "\nURL: " + url + "\n\nReview Summary:\n" + summary
  }

  /** Reads a notification back into its title, URL and summary. */
  function ParseMessage(m: string): Option<(string, string, string)>
  {
    match StripPrefix(m, "*New PR Review*\nTitle: ")
    case None => None
    case Some(rest) =>
      match Cut(rest, '\n')
      case None => None
      case Some((title, rest2)) =>
        match StripPrefix(rest2, "URL: ")
        case None => None
        case Some(rest3) =>
          match Cut(rest3, '\n')
          case None => None
          case Some((url, rest4)) =>
            match StripPrefix(rest4, "\nReview Summary:\n")
            case None => None
            case Some(summary) => Some((title, url, summary))
  }

  /** The layout is unambiguous: when title and URL hold no newline, the message gives
      back exactly the title, the URL and the summary (which may hold anything). */
  lemma {:induction false} MessageRoundTrip(title: string, url: string, summary: string)
    requires '\n' !in title && '\n' !in url
    ensures ParseMessage(Message(title, url, summary)) == Some((title, url, summary))
  {
    var tail4 := "\nReview Summary:\n" + summary;
    var tail3 := url + ['\n'] + tail4;
    var tail2 := "URL: " + tail3;
    var tail1 := title + ['\n'] + tail2;
    var m := Message(title, url, summary);
    assert m == "*New PR Review*\nTitle: " + tail1;
    assert StripPrefix(m, "*New PR Review*\nTitle: ") == Some(tail1);
    CutAfter(title, '\n', tail2);
    assert StripPrefix(tail2, "URL: ") == Some(tail3);
    CutAfter(url, '\n', tail4);
    assert StripPrefix(tail4, "\nReview Summary:\n") == Some(summary);
  }

  /** `SendPRReviewNotification`: posts the formatted message to the channel named by
      SLACK_CHANNEL_ID (read at call time); a post failure is wrapped, a success is nil. */
  function SendPRReviewNotification(c: Client, env: Env, net: Network, title: string, url: string, summary: string)
    : (r: (Result<()>, seq<Call>))
    ensures r.1 == [PostMessage(Getenv(env, "SLACK_CHANNEL_ID"), Message(title, url, summary))]
    ensures r.0.Ok? <==> net.postMessage(r.1[0].channel, r.1[0].text).Ok?
    ensures r.0.Err? ==> r.0.msg == "failed to send Slack message: " + net.postMessage(r.1[0].channel, r.1[0].text).msg
  {
    var channel := Getenv(env, "SLACK_CHANNEL_ID");
    var message := Message(title, url, summary);
    var calls := [PostMessage(channel, message)];
    match net.postMessage(channel, message)
    case Err(e) => (Err("failed to send Slack message: " + e), calls)
    case Ok(_) => (Ok(()), calls)
  }
}

=== FILE: text.dfy ===
/** The few pieces of Go's `strings` and `fmt` packages the core relies on. */
module Text {
  import opened Errors

  /** Number of occurrences of `c` in `s`. */
  function Count(s: string, c: char): nat
  {
    if |s| == 0 then 0 else (if s[0] == c then 1 else 0) + Count(s[1..], c)
  }

  /** `strings.Join(parts, sep)`: the parts in order, `sep` between neighbours. */
  function Join(parts: seq<string>, sep: string): string
  {
    if |parts| == 0 then ""
    else if |parts| == 1 then parts[0]
    else parts[0] + sep + Join(parts[1..], sep)
  }

  /** Where `parts[i]` starts inside `Join(parts, sep)`. */
  function Offset(parts: seq<string>, sep: string, i: nat): nat
    requires i < |parts|
  {
    if i == 0 then 0 else |parts[0]| + |sep| + Offset(parts[1..], sep, i - 1)
  }

  lemma SliceOfConcat(x: string, y: string, lo: nat, hi: nat)
    requires lo <= hi <= |y|
    ensures (x + y)[|x| + lo .. |x| + hi] == y[lo..hi]
  {
  }

  /** Join lays every part out in order: `parts[i]` sits at `Offset(parts, sep, i)`,
      and, unless it is the last part, is followed by `sep`. */
  lemma {:induction false} JoinAt(parts: seq<string>, sep: string, i: nat)
    requires i < |parts|
    ensures Offset(parts, sep, i) + |parts[i]| <= |Join(parts, sep)|
    ensures Join(parts, sep)[Offset(parts, sep, i) .. Offset(parts, sep, i) + |parts[i]|] == parts[i]
    ensures i + 1 < |parts| ==>
      Offset(parts, sep, i) + |parts[i]| + |sep| <= |Join(parts, sep)| &&
      Join(parts, sep)[Offset(parts, sep, i) + |parts[i]| .. Offset(parts, sep, i) + |parts[i]| + |sep|] == sep
  {
    var j := Join(parts, sep);
    if |parts| == 1 {
      assert j == parts[0];
    } else {
      var rest := Join(parts[1..], sep);
      assert j == parts[0] + sep + rest;
      if i == 0 {
        assert j[..|parts[0]|] == parts[0];
        assert j[|parts[0]|..|parts[0]| + |sep|] == sep;
      } else {
        JoinAt(parts[1..], sep, i - 1);
        var o := Offset(parts[1..], sep, i - 1);
        assert parts[1..][i - 1] == parts[i];
        SliceOfConcat(parts[0] + sep, rest, o, o + |parts[i]|);
        if i + 1 < |parts| {
          SliceOfConcat(parts[0] + sep, rest, o + |parts[i]|, o + |parts[i]| + |sep|);
        }
      }
    }
  }

  /** `p` is `pre` followed by the joined parts, laid out so that `parts[i]` sits at
      `|pre| + Offset(parts, sep, i)` and is followed by `sep` unless it is the last part. */
  predicate PartAt(p: string, pre: string, parts: seq<string>, sep: string, i: nat)
    requires i < |parts|
  {
    var at := |pre| + Offset(parts, sep, i);
    && |pre| <= |p| && p[..|pre|] == pre
    && at + |parts[i]| <= |p|
    && p[at .. at + |parts[i]|] == parts[i]
    && (i + 1 < |parts| ==> at + |parts[i]| + |sep| <= |p| && p[at + |parts[i]| .. at + |parts[i]| + |sep|] == sep)
  }

  /** The layout of `Join` behind a fixed prefix. */
  lemma PrefixedJoinAt(pre: string, parts: seq<string>, sep: string, i: nat)
    requires i < |parts|
    ensures PartAt(pre + Join(parts, sep), pre, parts, sep, i)
  {
    var j := Join(parts, sep);
    var o := Offset(parts, sep, i);
    JoinAt(parts, sep, i);
    SliceOfConcat(pre, j, o, o + |parts[i]|);
    if i + 1 < |parts| {
      SliceOfConcat(pre, j, o + |parts[i]|, o + |parts[i]| + |sep|);
    }
  }

  /** `strings.Split(s, string(c))`: the maximal c-free pieces of `s`, in order. */
  function Split(s: string, c: char): (parts: seq<string>)
    ensures |parts| == Count(s, c) + 1
    ensures forall i :: 0 <= i < |parts| ==> c !in parts[i]
  {
    if |s| == 0 then [""]
    else
      var rest := Split(s[1..], c);
      if s[0] == c then [""] + rest
      else [[s[0]] + rest[0]] + rest[1..]
  }

  /** Splitting and re-joining with the same separator gives back the input. */
  lemma {:induction false} JoinSplit(s: string, c: char)
    ensures Join(Split(s, c), [c]) == s
  {
    if |s| > 0 {
      var rest := Split(s[1..], c);
      JoinSplit(s[1..], c);
      assert s == [s[0]] + s[1..];
      if s[0] != c && |rest| > 1 {
        assert rest == [rest[0]] + rest[1..];
        assert Join(rest, [c]) == rest[0] + [c] + Join(rest[1..], [c]);
      }
    }
  }

  /** A c-free prefix followed by `c` is the first piece of the split. */
  lemma {:induction false} SplitAfter(a: string, c: char, b: string)
    requires c !in a
    ensures Split(a + [c] + b, c) == [a] + Split(b, c)
  {
    if |a| == 0 {
      assert a + [c] + b == [c] + b;
      assert ([c] + b)[1..] == b;
    } else {
      SplitAfter(a[1..], c, b);
      assert (a + [c] + b)[1..] == a[1..] + [c] + b;
      assert [a[0]] + a[1..] == a;
    }
  }

  /** A c-free string splits into itself alone. */
  lemma {:induction false} SplitNone(b: string, c: char)
    requires c !in b
    ensures Split(b, c) == [b]
  {
    if |b| > 0 {
      SplitNone(b[1..], c);
      assert [b[0]] + b[1..] == b;
    }
  }

  /** `strings.Cut(s, string(c))`: the text before and after the first `c`. */
  function Cut(s: string, c: char): (r: Option<(string, string)>)
    ensures r.Some? ==> s == r.value.0 + [c] + r.value.1 && c !in r.value.0
    ensures r.None? ==> c !in s
  {
    if |s| == 0 then None
    else if s[0] == c then Some(([], s[1..]))
    else match Cut(s[1..], c)
      case None => None
      case Some((before, after)) => Some(([s[0]] + before, after))
  }

  /** Cut finds the first separator, whatever follows it. */
  lemma {:induction false} CutAfter(a: string, c: char, b: string)
    requires c !in a
    ensures Cut(a + [c] + b, c) == Some((a, b))
  {
    if |a| == 0 {
      assert a + [c] + b == [c] + b;
      assert ([c] + b)[1..] == b;
    } else {
      CutAfter(a[1..], c, b);
      assert (a + [c] + b)[1..] == a[1..] + [c] + b;
      assert [a[0]] + a[1..] == a;
    }
  }

  /** `s` with the prefix `p` removed, or None when `s` does not start with `p`. */
  function StripPrefix(s: string, p: string): (r: Option<string>)
    ensures r.Some? <==> p <= s
    ensures r.Some? ==> s == p + r.value
  {
    if p <= s then Some(s[|p|..]) else None
  }

  function Digit(d: nat): char
    requires d < 10
  {
    "0123456789"[d]
  }

  function NatToString(n: nat): string
  {
    if n < 10 then [Digit(n)] else NatToString(n / 10) + [Digit(n % 10)]
  }

  /** `fmt.Sprintf("%d", n)`. */
  function IntToString(n: int): string
  {
    if n < 0 then "-" + NatToString(-n) else NatToString(n)
  }
}

=== FILE: types.dfy ===
/** The webhook payload records of types/webhook.go, as `encoding/json` fills them in
    (absent fields stay "" or 0). */
module Types {

  datatype PullRequest = PullRequest(number: int, title: string, body: string, url: string)

  datatype Repository = Repository(fullName: string)

  /** A GitHub `pull_request` event: `action`, `pull_request.{number,title,body,html_url}`,
      `repository.full_name`. */
  datatype PRWebhook = PRWebhook(action: string, pullRequest: PullRequest, repository: Repository)

  datatype GitLabUser = GitLabUser(username: string)

  /** `object_attributes`: the merge request's project-scoped `iid`, title, description,
      url and the event's action. */
  datatype MergeRequestAttributes = MergeRequestAttributes(
    iid: int, title: string, description: string, url: string, action: string)

  datatype GitLabProject = GitLabProject(pathWithNamespace: string)

  /** A GitLab event: the routing discriminant `object_kind` sits at the top level. */
  datatype GitLabWebhook = GitLabWebhook(
    objectKind: string, eventType: string, user: GitLabUser,
    objectAttributes: MergeRequestAttributes, project: GitLabProject)
}

=== FILE: vcs.dfy ===
/** The VCS backend interface (vcs/provider.go) as a closed choice of its two
    implementations, and the factory that picks one (vcs/factory.go). */
module Vcs {
  import opened Errors
  import opened Config
  import opened Wire
  import Changes
  import GitHub
  import GitLab

  datatype Provider = GitHubProvider(gh: GitHub.Client) | GitLabProvider(gl: GitLab.Client)

  /** `NewProvider`: VCS_PROVIDER, defaulting to "github" when empty, matched exactly.
      The client is returned with a nil error even when its constructor gave nil. */
  function NewProvider(env: Env): (r: Result<Provider>)
    ensures r.Ok? <==> Getenv(env, "VCS_PROVIDER") in {"", "github", "gitlab"}
    ensures r.Ok? ==> (r.value.GitLabProvider? <==> Getenv(env, "VCS_PROVIDER") == "gitlab")
    ensures r.Ok? && r.value.GitHubProvider? ==> r.value.gh == GitHub.NewClient(env)
    ensures r.Ok? && r.value.GitLabProvider? ==> r.value.gl == GitLab.NewClient(env)
    ensures r.Err? ==> r.msg == "unsupported VCS provider: " + Getenv(env, "VCS_PROVIDER")
  {
    var providerType := if Getenv(env, "VCS_PROVIDER") == "" then "github" else Getenv(env, "VCS_PROVIDER");
    if providerType == "github" then Ok(GitHubProvider(GitHub.NewClient(env)))
    else if providerType == "gitlab" then Ok(GitLabProvider(GitLab.NewClient(env)))
    else Err("unsupported VCS provider: " + providerType)
  }

  /** A provider whose `*Client` is nil: its methods panic as soon as they use the SDK. */
  predicate HasNilClient(p: Provider)
  {
    match p
    case GitHubProvider(gh) => gh.NilClient?
    case GitLabProvider(gl) => gl.NilClient?
  }

  /** The factory as evidently intended: a missing token is reported as an error instead
      of a nil client wrapped in a non-nil interface value. Everything else is unchanged. */
  function NewProviderChecked(env: Env): (r: Result<Provider>)
    ensures r.Ok? <==> NewProvider(env).Ok? && !HasNilClient(NewProvider(env).value)
    ensures r.Ok? ==> r == NewProvider(env) && !HasNilClient(r.value)
    ensures NewProvider(env).Err? ==> r == NewProvider(env)
  {
    match NewProvider(env)
    case Err(e) => Err(e)
    case Ok(p) =>
      if p.GitHubProvider? && p.gh.NilClient? then Err("GITHUB_TOKEN environment variable is not set")
      else if p.GitLabProvider? && p.gl.NilClient? then Err("GITLAB_TOKEN environment variable is not set")
      else Ok(p)
  }

  /** The factory as written accepts a configuration with no token at all: selecting
      GitLab without GITLAB_TOKEN yields a provider and no error, and that provider has a
      nil client. The corrected factory refuses the same configuration. */
  lemma NilClientAccepted()
    ensures var env := Env(map["VCS_PROVIDER" := "gitlab"]);
      && NewProvider(env).Ok? && HasNilClient(NewProvider(env).value)
      && NewProviderChecked(env).Err?
  {
    var env := Env(map["VCS_PROVIDER" := "gitlab"]);
    assert Getenv(env, "VCS_PROVIDER") == "gitlab";
    assert Getenv(env, "GITLAB_TOKEN") == "";
  }

  /** A VCS request about pull request `number` of `repo`: GitHub requests name the owner
      and the repository that `repo` joins with a slash, GitLab requests name `repo` itself
      as the project. */
  predicate OnPR(c: Call, repo: string, number: int)
  {
    match c
    case ListFiles(owner, name, n) => owner + "/" + name == repo && n == number
    case GetPull(owner, name, n) => owner + "/" + name == repo && n == number
    case CreatePullReview(owner, name, n, _) => owner + "/" + name == repo && n == number
    case ListDiffs(project, n) => project == repo && n == number
    case CreateNote(project, n, _) => project == repo && n == number
    case _ => false
  }

  /** `Provider.GetChanges`, dispatched to the configured host. Whatever the host, fetching
      changes only reads: it makes at most one request, about the pull request it is given,
      and posts nothing. With a working client the result is the host's listing rendered
      one change string per file, or the host's error wrapped. */
  method GetChanges(p: Provider, net: Network, repo: string, number: int)
    returns (r: Reply<seq<string>>, calls: seq<Call>)
    ensures |calls| <= 1
    ensures forall i :: 0 <= i < |calls| ==> IsVcsRead(calls[i])
    ensures forall c :: c in calls ==> OnPR(c, repo, number)
    ensures r.Succeeded() ==> |calls| == 1
    ensures p.GitHubProvider? && GitHub.SplitRepo(repo).Err? ==>
      r == Returned(Err(GitHub.SplitRepo(repo).msg))
    ensures p.GitHubProvider? && p.gh.Client? && GitHub.SplitRepo(repo).Ok? ==>
      var owner, name := GitHub.SplitRepo(repo).value.0, GitHub.SplitRepo(repo).value.1;
      calls == [ListFiles(owner, name, number)] &&
      match net.listFiles(owner, name, number)
      case Err(e) => r == Returned(Err("failed to get PR changes: " + e))
      case Ok(files) =>
        r.Succeeded() && |r.result.value| == |files| &&
        forall i :: 0 <= i < |files| ==>
          r.result.value[i] == Changes.Entry(files[i].Filename(), files[i].Patch())
    ensures p.GitLabProvider? && p.gl.Client? ==>
      calls == [ListDiffs(repo, number)] &&
      match net.listDiffs(repo, number)
      case Err(e) => r == Returned(Err("failed to get MR changes: " + e))
      case Ok(diffs) =>
        r.Succeeded() && |r.result.value| == |diffs| &&
        forall i :: 0 <= i < |diffs| ==>
          r.result.value[i] == Changes.Entry(diffs[i].newPath, diffs[i].diff)
    ensures r.Panicked? <==> HasNilClient(p) && (p.GitLabProvider? || GitHub.SplitRepo(repo).Ok?)
    ensures r.Panicked? ==> r.reason == NilDereference
  {
    match p
    case GitHubProvider(gh) =>
      r, calls := GitHub.GetChanges(gh, net, repo, number);
    case GitLabProvider(gl) =>
      r, calls := GitLab.GetChanges(gl, net, repo, number);
  }

  /** `Provider.CreateReview`, dispatched to the configured host. Whatever the host, the
      only text it publishes is the review it is given, it publishes at most once and as
      its last request, every request is about the pull request it is given, and it reports
      success exactly when the host accepted every request. */
  method CreateReview(p: Provider, env: Env, net: Network, repo: string, number: int, review: string)
    returns (r: Reply<()>, calls: seq<Call>)
    ensures forall i :: 0 <= i < |calls| ==> IsVcsRead(calls[i]) || IsVcsPost(calls[i])
    ensures forall i :: 0 <= i < |calls| && IsVcsPost(calls[i]) ==> PostedBody(calls[i]) == review && i == |calls| - 1
    ensures forall c :: c in calls ==> OnPR(c, repo, number)
    ensures r.Succeeded() ==> |calls| >= 1 && IsVcsPost(calls[|calls| - 1])
    ensures p.GitHubProvider? && GitHub.SplitRepo(repo).Err? ==>
      r == Returned(Err(GitHub.SplitRepo(repo).msg))
    ensures p.GitHubProvider? && p.gh.Client? && GitHub.SplitRepo(repo).Ok? ==>
      var owner, name := GitHub.SplitRepo(repo).value.0, GitHub.SplitRepo(repo).value.1;
      |calls| >= 1 && calls[0] == GetPull(owner, name, number) &&
      match net.getPull(owner, name, number)
      case Err(e) => |calls| == 1 && r == Returned(Err("failed to get PR details: " + e))
      case Ok(pr) =>
        var bot := Getenv(env, "GITHUB_BOT_USERNAME");
        |calls| == 2 && calls[1].CreatePullReview? &&
        (calls[1].request.event == "COMMENT" <==> bot != "" && pr.Login() == bot) &&
        (calls[1].request.event == "COMMENT" || calls[1].request.event == "REQUEST_CHANGES") &&
        match net.createPullReview(owner, name, number, calls[1].request)
        case Err(e) => r == Returned(Err("failed to create PR review: " + e))
        case Ok(_) => r == Returned(Ok(()))
    ensures p.GitLabProvider? && p.gl.Client? ==>
      calls == [CreateNote(repo, number, review)] &&
      match net.createNote(repo, number, review)
      case Err(e) => r == Returned(Err("failed to create MR review: " + e))
      case Ok(_) => r == Returned(Ok(()))
    ensures r.Panicked? <==> HasNilClient(p) && (p.GitLabProvider? || GitHub.SplitRepo(repo).Ok?)
    ensures r.Panicked? ==> r.reason == NilDereference
  {
    match p
    case GitHubProvider(gh) =>
      r, calls := GitHub.CreateReview(gh, env, net, repo, number, review);
    case GitLabProvider(gl) =>
      r, calls := GitLab.CreateReview(gl, net, repo, number, review);
  }
}

=== FILE: wire.dfy ===
/** What the core exchanges with the outside world: the request and response records
    of the SDKs it calls (go-github, go-gitlab, go-openai, slack-go, Ollama's HTTP API),
    a `Call` per network request, and `Network`, the oracle that answers each request. */
module Wire {
  import opened Errors

  /** go-github `*CommitFile`; `GetFilename`/`GetPatch` read a missing field as "". */
  datatype CommitFile = CommitFile(filename: Option<string>, patch: Option<string>)
  {
    function Filename(): string { if filename.Some? then filename.value else "" }
    function Patch(): string { if patch.Some? then patch.value else "" }
  }

  /** go-github `*PullRequest`, reduced to `pr.GetUser().GetLogin()` (None: no user or no login). */
  datatype PullRequestInfo = PullRequestInfo(authorLogin: Option<string>)
  {
    function Login(): string { if authorLogin.Some? then authorLogin.value else "" }
  }

  /** go-github `PullRequestReviewRequest{Body, Event}`. */
  datatype ReviewRequest = ReviewRequest(body: string, event: string)

  /** go-gitlab `*MergeRequestDiff`. */
  datatype MergeRequestDiff = MergeRequestDiff(newPath: string, diff: string)

  datatype ChatMessage = ChatMessage(role: string, content: string)

  /** go-openai `ChatCompletionRequest{Model, Messages}`. */
  datatype ChatRequest = ChatRequest(model: string, messages: seq<ChatMessage>)

  /** go-openai `ChatCompletionResponse`, reduced to `Choices[i].Message.Content`. */
  datatype ChatResponse = ChatResponse(choices: seq<string>)

  /** The JSON body of a POST to Ollama's `/api/generate`. */
  datatype OllamaRequest = OllamaRequest(model: string, prompt: string, system: string, stream: bool)

  datatype OllamaResponse = OllamaResponse(response: string, done: bool)

  /** An HTTP reply from Ollama: status, raw body, and what decoding the body as an
      `OllamaResponse` gives. */
  datatype HttpReply = HttpReply(statusCode: int, body: string, decoded: Result<OllamaResponse>)

  /** One network request, as recorded in a trace. */
  datatype Call =
    | ListFiles(owner: string, repo: string, number: int)
    | GetPull(owner: string, repo: string, number: int)
    | CreatePullReview(owner: string, repo: string, number: int, request: ReviewRequest)
    | ListDiffs(project: string, number: int)
    | CreateNote(project: string, number: int, body: string)
    | ChatCompletion(chat: ChatRequest)
    | HttpPost(url: string, contentType: string, generate: OllamaRequest)
    | PostMessage(channel: string, text: string)

  /** The answer the world gives to each request; an `Err` is a transport, API or
      timeout failure as the SDK reports it. */
  datatype Network = Network(
    listFiles: (string, string, int) -> Result<seq<CommitFile>>,
    getPull: (string, string, int) -> Result<PullRequestInfo>,
    createPullReview: (string, string, int, ReviewRequest) -> Result<()>,
    listDiffs: (string, int) -> Result<seq<MergeRequestDiff>>,
    createNote: (string, int, string) -> Result<()>,
    chat: ChatRequest -> Result<ChatResponse>,
    post: (string, string, OllamaRequest) -> Result<HttpReply>,
    postMessage: (string, string) -> Result<()>)

  /** Calls that read from the VCS host. */
  predicate IsVcsRead(c: Call) { c.ListFiles? || c.GetPull? || c.ListDiffs? }

  /** Calls that publish a review on the VCS host. */
  predicate IsVcsPost(c: Call) { c.CreatePullReview? || c.CreateNote? }

  /** Calls to a language-model backend. */
  predicate IsAiCall(c: Call) { c.ChatCompletion? || c.HttpPost? }

  /** The text a VCS post publishes. */
  function PostedBody(c: Call): string
    requires IsVcsPost(c)
  {
    if c.CreatePullReview? then c.request.body else c.body
  }
}
